=== FILE: README.md ===
# Excel order distributor — a Dafny model

The distributor turns an order spreadsheet into a distribution sheet. It reads
a rule sheet that lists, for each product group (a "shipping" / "combined
packing" / box key), the components that group ships as: a component code,
a top-seller code and an EA quantity. Every order line's product name is then
matched against the group keys by a five-tier cascade: Profutura pre-stage,
Pronutra stage 1, Pronutra stage 2, Profutura stage 1, Profutura stage 2.

- A line that matches a group with components becomes one output row per
  component. The row is a copy of the order row with the component code, the
  seller code, the EA quantity (component EA × purchase quantity), the
  original name and the original quantity written in.
- Any other line passes through as one row. Its component code is empty and
  its EA equals the purchase quantity.

In the written sheet, the rows that carry a component code are shaded.

The project models the four parts of `src/excel_distributor.py` that do this
work, and states and proves what each promises.

| file | module | models |
|---|---|---|
| `wrappers.dfy` | `Wrappers` | `Option` |
| `text.dfy` | `Text` | substring search (`in`), ASCII `upper()`/`lower()`, Python's `strip()`, `replace(pat, '')` |
| `numbers.dfy` | `Numbers` | `str(n)`, `int(s)` and `int(float(s))` on plain decimal strings |
| `cells.dfy` | `Cells` | a cell (missing, text, integer), `str()` of a cell, the "blank-like" test (`''`, `'nan'`, `'none'`) |
| `rows.dfy` | `Rows` | a row as an insertion-ordered dict: `get`, assignment, and the row pandas builds from a sheet line |
| `headers.dfy` | `Headers` | column discovery: the first header that contains a column's marker words |
| `table.dfy` | `RuleTables` | the rule table as an insertion-ordered dict from group key to component list |
| `rules.dfy` | `RuleBuilder` | `load_distribution_rules`: a row loop with a carried-forward current group key |
| `matcher.dfy` | `Matcher` | `match_product_to_rule`: the five-tier cascade |
| `expander.dfy` | `Expander` | `distribute_order`: one output row per component |
| `orders.dfy` | `Orders` | `process_orders`: the early returns and the per-line loop |
| `shading.dfy` | `Shading` | the shading test of `apply_cell_colors` |
| `scenarios.dfy` | `Scenarios` | two whole runs on concrete sheets |

How each part is modelled:

- **Rule builder.** An imperative loop (`BuildTable`, `ReadRow`) proved equal to a left fold. The fold is proved equal to an independent description, key by key:
  - the keys are the non-blank group keys in order of first appearance;
  - each key's list holds the components of the rows that fall under it by carry-forward.
- **Matcher.** A pure function whose contract says which tier wins and which entry it returns.
- **Expander and per-line loop.** Methods with loops, proved equal to specification functions (`Expansion`, `Distribution`). The lemmas are about those functions.

## Model

| member | source | states |
|---|---|---|
| Headers.Marks | src/excel_distributor.py:35-67 | the marker words of each header search, as the literal tests at 35, 53, 60 and 67 (and 168, 178, 218, 225 and 303 for the order and result sheets); the definition is the source's test itself, and what a search finds with it is stated by `Headers.FirstHeader` and `RuleBuilder.ResolvedColumns` |
| Headers.FirstHeader | src/excel_distributor.py:51-69 | the column found is the first header carrying the marker words; none is found exactly when no header carries them |
| Headers.MarkedHeaderNonEmpty | src/excel_distributor.py:39-42 | a header found by a marker search is a non-empty string, so the truthiness test on the found column always passes |
| Cells.BlankLike | src/excel_distributor.py:44 | the emptiness test of 44 and 75: a missing cell, or one whose `str()` stripped and lower-cased is `''`, `'nan'` or `'none'`; the definition is the test itself, and `Cells.BlankLikeTextStable` and `RuleBuilder.RulesWellFormed` carry what it guarantees |
| Cells.BlankLikeTextStable | src/excel_distributor.py:44-45 | a stripped key is blank-like exactly when the unstripped cell text is |
| Text.StripLeft | src/excel_distributor.py:44-45 | `lstrip()`: the result is a suffix of `s`, everything cut from the front is whitespace, and the result does not start with whitespace |
| Text.StripRight | src/excel_distributor.py:44-45 | `rstrip()`: the result is a prefix of `s`, everything cut from the back is whitespace, and the result does not end with whitespace |
| Text.Strip | src/excel_distributor.py:44-45 | `strip()`, as `rstrip()` after `lstrip()`: the result has no whitespace at either end, and by the contracts of `StripLeft` and `StripRight` only whitespace is cut |
| Text.StripIdempotent | src/excel_distributor.py:45 | stripping a stored key again changes nothing |
| Text.RemoveAll | src/excel_distributor.py:79 | `str.replace(pat, '')`, scanning left to right and dropping each occurrence of `pat`; the result is never longer than the input |
| Text.RemoveAllKeepsPrefix | src/excel_distributor.py:79 | a prefix that cannot start an occurrence of `pat` is kept, and the removal continues after it |
| Text.RemoveAllAbsent | src/excel_distributor.py:79 | a string without the first character of `pat` is left unchanged |
| Text.ToUpper | src/excel_distributor.py:107 | `upper()` keeps the length; `Text.ToUpperAt` states that it upper-cases each character in place |
| Text.ToUpperAt | src/excel_distributor.py:107 | character `i` of the upper-cased string is character `i` of the input, upper-cased |
| Rows.Set | src/excel_distributor.py:161-163 | dict assignment `row[f] = v`: the value of `f` is overwritten, and `f` is added last when it is new |
| Rows.SetFields | src/excel_distributor.py:255-260 | after `row[f] = v`, `f` reads as `v`, every other field reads as before, and the names keep their order with `f` added last when new |
| Numbers.ParseInt | src/excel_distributor.py:81 | `int(s)` on a string: surrounding whitespace, an optional sign and digits give the value, anything else fails; `Numbers.ParseIntRoundTrip` and `Numbers.NotANumber` carry its properties |
| Numbers.ParseIntRoundTrip | src/excel_distributor.py:81 | `int(str(n)) == n` for every integer, negative ones included |
| Numbers.ParseDecimal | src/excel_distributor.py:84 | `int(float(s))` on a plain decimal string (also used at 241): the whole part with its sign, or failure; `Numbers.ParseDecimalExtendsParseInt`, `Numbers.ParseDecimalTruncates` and `Numbers.NotANumber` carry its properties |
| Numbers.ParseDecimalExtendsParseInt | src/excel_distributor.py:80-84 | wherever `int(s)` succeeds, the `int(float(s))` fallback gives the same value |
| Numbers.ParseDecimalTruncates | src/excel_distributor.py:84 | on the model's exact reading of a plain decimal, `str(n) + "." + f` reads as `n` for every digit string `f`: the fraction is dropped toward zero |
| Numbers.NotANumber | src/excel_distributor.py:85-86 | a trimmed string starting with anything but a sign, a digit or a point is rejected by both parses |
| RuleTables.Lookup | src/excel_distributor.py:46 | looking a key up fails exactly when the key is not in the table |
| RuleTables.LookupEntry | src/excel_distributor.py:112-115 | with distinct keys, looking up entry `i`'s key gives entry `i`'s components |
| RuleTables.AppendTo | src/excel_distributor.py:88-92 | appending to a key's list keeps the keys and their order, adds the component at the end of that key's list and changes no other list |
| RuleBuilder.ResolveColumns | src/excel_distributor.py:33-42 | the four rule columns: each is the first header carrying its marker words, and the group column falls back to the first column |
| RuleBuilder.ResolvedColumns | src/excel_distributor.py:51-69 | the group column is absent only for an empty header row, lies within it, and is at or before every marked group header; each found component, seller or EA column carries its marker words |
| RuleBuilder.GroupColumnFallback | src/excel_distributor.py:39-42 | with no marked group header and at least one column, the group key is read from column 0 |
| RuleBuilder.GroupKeyOf | src/excel_distributor.py:40-45 | the group key a row names: none for a blank-like cell, otherwise its stripped text; `RuleBuilder.RowValuesMeaningful` states it is never blank-like |
| RuleBuilder.ComponentOf | src/excel_distributor.py:71-91 | the component a row describes: none for a blank-like code, otherwise the stripped code, the stripped seller code (empty when missing) and the parsed EA |
| RuleBuilder.RowValuesMeaningful | src/excel_distributor.py:44-90 | a row's group key and component code, when present, are stripped and never blank-like |
| RuleBuilder.Step | src/excel_distributor.py:44-92 | one pass of the row loop on values; `RuleBuilder.ReadRow` is proved equal to it and `RuleBuilder.StepCharacterised` states what it preserves |
| RuleBuilder.Fold | src/excel_distributor.py:31-92 | the row loop on values; `RuleBuilder.BuildTable` is proved equal to it, and `RuleBuilder.FoldCharacterised` and `RuleBuilder.FoldAppend` state its properties |
| RuleBuilder.RulesOf | src/excel_distributor.py:30-94 | the table the builder returns for a readable sheet; `RuleBuilder.RulesOfCharacterised` and `RuleBuilder.RulesWellFormed` state what it holds |
| RuleBuilder.LoadRules | src/excel_distributor.py:19-99 | an unreadable sheet gives the empty table; otherwise the table is the fold of the rows under the resolved columns |
| RuleBuilder.BuildTable | src/excel_distributor.py:30-92 | the row loop computes the fold of its step over the rows, starting with no table and no current key |
| RuleBuilder.ReadRow | src/excel_distributor.py:44-92 | one pass of the loop: a non-blank group key becomes the current key and opens an entry if new; then a non-blank component is appended under the current key |
| RuleBuilder.RulesOfCharacterised | src/excel_distributor.py:30-92 | the built table has distinct keys; they are the non-blank group keys in order of first appearance; each key's list is the components of the rows that fall under it by carry-forward, in row order |
| RuleBuilder.FoldCharacterised | src/excel_distributor.py:31-92 | after any prefix of the rows, the table and the current key match the key-by-key description |
| RuleBuilder.StepCharacterised | src/excel_distributor.py:44-92 | one pass of the loop preserves the key-by-key description |
| RuleBuilder.FoldAppend | src/excel_distributor.py:31 | running the loop over `a + b` is running it over `a` and then over `b` |
| RuleBuilder.LeadingRowsDropped | src/excel_distributor.py:49 | component rows before the first group key are dropped: the table equals that of the remaining rows |
| RuleBuilder.RepeatedKeyAppends | src/excel_distributor.py:45-47 | a group key seen again keeps the keys as they were and appends the row's component after those already collected |
| RuleBuilder.BlankCodeAddsNothing | src/excel_distributor.py:75 | a row with a blank-like component code adds no component; at most it opens its own group's entry |
| RuleBuilder.RulesWellFormed | src/excel_distributor.py:44-45 | every built table has distinct keys, and its keys and component codes are stripped and never blank-like |
| RuleBuilder.CurrentKeyNonEmpty | src/excel_distributor.py:49 | the carried-forward group key is never empty, so testing for a current key is the source's truthiness test |
| RuleBuilder.ParseEa | src/excel_distributor.py:77-86 | the EA of a rule row: 0 for a missing cell, otherwise the unit-stripped text read by `int`, then `int(float(...))`, then 0 |
| RuleBuilder.WithoutUnit | src/excel_distributor.py:79 | `str(ea).replace(' EA', '').replace('EA', '').strip()` |
| RuleBuilder.ReadEa | src/excel_distributor.py:80-86 | the `int` attempt, the `int(float(...))` fallback and the default 0 |
| RuleBuilder.WithoutUnitPlain | src/excel_distributor.py:79 | a trimmed text without spaces or `E` loses exactly a trailing ` EA` or `EA` unit and nothing else |
| RuleBuilder.ReadEaIsDecimal | src/excel_distributor.py:80-86 | the `int` attempt never changes the outcome: the EA is what `int(float(...))` gives, and 0 where that fails |
| RuleBuilder.ParseEaNotANumber | src/excel_distributor.py:77-86 | any EA text whose unit-stripped form does not start like a number reads as 0 |
| RuleBuilder.ParseEaCount | src/excel_distributor.py:79-81 | `"<n> EA"`, `"<n>EA"` and a numeric cell all read as `n`, negative `n` included |
| RuleBuilder.ParseEaDecimal | src/excel_distributor.py:82-84 | on the model's exact reading of a plain decimal, a decimal EA such as `"2.5"` reads as its whole part, truncated toward zero |
| RuleBuilder.ParseEaDefault | src/excel_distributor.py:77-86 | a missing EA cell, an empty one and a word such as `"box"` read as 0 |
| Matcher.NameFits | src/excel_distributor.py:111-139 | the five tiers' tests on the upper-cased product name, as written at 111, 118, 125, 132 and 139; the definition is the test itself, and `Matcher.PreNameSkipsProfutura` and `Matcher.ProfuturaTiersAvoidPre` carry its properties |
| Matcher.KeyFits | src/excel_distributor.py:114-142 | the five tiers' tests on an upper-cased rule key, as written at 114, 121, 128, 135 and 142; the definition is the test itself, and `Matcher.ProfuturaPreKeyTest` and `Matcher.ProfuturaTiersAvoidPre` carry its properties |
| Matcher.FirstFit | src/excel_distributor.py:112-115 | a tier's key scan returns the first entry, in insertion order, whose upper-cased key passes the tier's key test; it returns none exactly when no key passes |
| Matcher.Winner | src/excel_distributor.py:111-143 | the winning tier fires (its name test holds and some key passes its key test), no higher-priority tier fires, and there is no winner exactly when no tier fires |
| Matcher.Match | src/excel_distributor.py:101-145 | no match exactly for a missing name or when no tier fires; a match is an entry of the table |
| Matcher.MatchIsFirstFitOfWinner | src/excel_distributor.py:111-143 | if tier `u` fires for the name, no higher tier does, and entry `i` is the first key that passes `u`'s key test, then the match is entry `i` |
| Matcher.MatchIsEntry | src/excel_distributor.py:112-115 | the returned component list is exactly the table's list for the returned key |
| Matcher.ProfuturaPreKeyTest | src/excel_distributor.py:114 | the first tier's three key tests together say exactly "the key contains `PRE`" |
| Matcher.ProfuturaPrePriority | src/excel_distributor.py:111-115 | for a name containing `PROFUTURA` and `PRE`, the match is the first key containing `PRE` |
| Matcher.ProfuturaTiersAvoidPre | src/excel_distributor.py:132-143 | when tier 4 or 5 wins, neither the name nor the returned key contains `PRE` |
| Matcher.PreNameSkipsProfutura | src/excel_distributor.py:132-143 | a name with `PROFUTURA` and `PRE` is never handled by tier 4 or 5; if it matches under another tier, then no key contains `PRE` |
| Matcher.NoFittingKeyNoMatch | src/excel_distributor.py:145 | a table where no key passes any tier's key test matches no name |
| Expander.ExpandedRow | src/excel_distributor.py:152-187 | the output row for one component; `Expander.ExpandedRowFields` and `Expander.OriginalsFromOrder` state its fields |
| Expander.ExpandedRowFields | src/excel_distributor.py:156-185 | an output row has the component's code and seller code, EA = component EA × multiplier, the original name and quantity as read from the order row, every other field unchanged, and the order row's fields first |
| Expander.OriginalsFromOrder | src/excel_distributor.py:165-185 | the original name and quantity are the values of the order's name and quantity fields; without a quantity field, the original quantity is the multiplier |
| Expander.Expansion | src/excel_distributor.py:151-187 | exactly one row per component, and row `i` is component `i`'s expanded row |
| Expander.DistributeOrder | src/excel_distributor.py:147-189 | the loop returns the expansion of the order row over the component list |
| Expander.CopyWith | src/excel_distributor.py:152-187 | one pass of the loop: the five assignments produce the expanded row for that component |
| Expander.ExpansionAppend | src/excel_distributor.py:151 | output rows follow the component list: expanding `a + b` is expanding `a`, then `b` |
| Orders.Passthrough | src/excel_distributor.py:255-260 | the passthrough row: the order row with empty code and seller code, EA and original quantity set to the purchase quantity, and the original name set to the name cell |
| Orders.Quantity | src/excel_distributor.py:237-243 | the purchase quantity: 1 for a missing cell, the integer of a numeric cell, `int(float(...))` of a text, and 1 where that fails |
| Orders.PassthroughFields | src/excel_distributor.py:255-260 | a passthrough row has empty code and seller code, EA and original quantity equal to the purchase quantity, the original name equal to the name cell, and every other field unchanged |
| Orders.Usable | src/excel_distributor.py:248 | `rule_key and components`: a match whose key and component list are both non-empty; `Orders.RowOutputShape` and `Shading.OutputShaded` state what follows from it |
| Orders.RowOutput | src/excel_distributor.py:236-261 | one line's output rows; `Orders.RowOutputShape` states their number and contents in both branches |
| Orders.Run | src/excel_distributor.py:193-261 | the outcome of a run: the three early exits in the source's order, otherwise the distribution of the lines; `Orders.ProcessOrders` is proved equal to it and `Orders.RunSingleLine` and `Orders.DistributionAt` state its contents |
| Orders.ProcessOrders | src/excel_distributor.py:193-261 | an unreadable order sheet, an empty rule table and a missing product-name column each end the run with their own outcome; otherwise the result is the distribution of the lines |
| Orders.DistributeLines | src/excel_distributor.py:235-261 | the line loop produces the concatenation of each line's output rows, in line order |
| Orders.ProcessRow | src/excel_distributor.py:236-261 | one line's output is the expansion of its matched rule, or a single passthrough row |
| Orders.RowOutputShape | src/excel_distributor.py:246-261 | a line that matches a key with components gives exactly one row per component, row `k` expanded from component `k`; any other line gives exactly one passthrough row |
| Orders.RunSingleLine | src/excel_distributor.py:229-261 | a one-line sheet with a name column and a non-empty table distributes to that line's output |
| Orders.DistributionAppend | src/excel_distributor.py:235-251 | the output for lines `a + b` is the output for `a` followed by the output for `b` |
| Orders.DistributionAt | src/excel_distributor.py:235-261 | line `k`'s rows sit in the output right after the rows of the lines before it |
| Orders.QuantityReadsNumbers | src/excel_distributor.py:237-241 | a numeric quantity and its decimal text read as that number, and, on the model's exact reading of a plain decimal, a decimal text with a fraction reads as its whole part |
| Orders.QuantityDefaults | src/excel_distributor.py:240-243 | a missing quantity, an empty one and a non-numeric one count as 1 |
| Shading.CodeShown | src/excel_distributor.py:311-314 | a cell shows a code when it is truthy and its stripped, lower-cased text is not `''`, `'nan'` or `'none'` |
| Shading.Shaded | src/excel_distributor.py:301-314 | a data row is shaded when the first header containing the component-code field name exists and the row's cell under it shows a code |
| Shading.NoCodeHeaderNoShade | src/excel_distributor.py:308 | without a component-code header, no data row is shaded |
| Shading.ShadedByCode | src/excel_distributor.py:301-314 | when the header search finds the component-code field, a row is shaded exactly when that field shows a code |
| Shading.PassthroughUnshaded | src/excel_distributor.py:256 | a passthrough row is never shaded |
| Shading.ExpandedShaded | src/excel_distributor.py:309-318 | an expanded row is shaded exactly when its component code is not blank-like |
| Shading.OutputShaded | src/excel_distributor.py:309-318 | a line's rows are all shaded when its match is usable (a key with components) and all unshaded otherwise, given codes that are not blank-like |
| Shading.RowOutputShaded | src/excel_distributor.py:309-318 | with a table the builder can produce, a line's rows are shaded exactly when the line was expanded |
| Shading.DistributionShaded | src/excel_distributor.py:309-318 | in a whole result built from a rule sheet, each row coming from line `k` is shaded exactly when line `k` was expanded |
| Scenarios.PreStageOrderSplits | src/excel_distributor.py:246-251 | a `PROFUTURA PRE` order of 2 against a two-component `3PF PRE+IF` rule gives two shaded rows C1/S1 with EA 2 and C2/S2 with EA 4 |
| Scenarios.UnknownOrderPassesThrough | src/excel_distributor.py:253-261 | an unmatched order of 3 gives one unshaded row with empty codes and EA 3 |

## Left out

- Reading and writing spreadsheets (pandas, openpyxl), console output, tracebacks and the command-line entry point are not modelled. A sheet is given as its header row and its lines of cells. A sheet that cannot be read is `None`.
- The fill of the header row and the writing of the fill to cells are not modelled. Only the test that decides whether a data row is shaded is.
- Shading.Shaded: the result sheet's header row is a parameter. The lemmas assume `ShadesByCode` (the first header containing the component-code field name is that field), instead of deriving pandas' column order from the rows.
- Numbers.ParseDecimal: `float()` is modelled only on plain decimal strings. Exponents, underscores and non-ASCII digits read as failures. Values are read exactly rather than rounded to a double: large values stay exact, and a fraction with more digits than a double holds can round the value up to the next integer in Python (`int(float("2.9999999999999999"))` is 3), where the model truncates it to 2. This affects `RuleBuilder.ParseEa`, `Orders.Quantity` and the lemmas `Numbers.ParseDecimalTruncates`, `RuleBuilder.ParseEaDecimal` and `Orders.QuantityReadsNumbers`. (`inf` and `nan` read as failures, as `int(float(...))` raises on them too.)
- Numbers.ParseDecimalTruncates: holds on the model's exact reading of a plain decimal; Python's `int(float())` rounds to a double first, so a fraction such as `.9999999999999999` (more digits than a double holds) gives the next integer there.
- RuleBuilder.ParseEaDecimal: holds on the model's exact reading of a plain decimal; in Python an EA text such as `"2.9999999999999999"` reads as 3, not 2.
- Orders.QuantityReadsNumbers: the fraction case holds on the model's exact reading of a plain decimal; in Python a quantity text such as `"2.9999999999999999"` reads as 3, not 2.
- Cells.Cell: a floating-point cell is kept as the text of its `str()` everywhere: where it is read, and also where it is copied unchanged into output fields (the original name and quantity, and every other order field). Its truthiness in the shading test is therefore that of a non-empty text, so a float `0.0` under the component-code header would count as a code, where the source treats it as empty. The distributor only ever writes text into that column.
- Numbers.ParseInt: Python's `int()` and `float()` also accept underscores between digits and non-ASCII decimal digits. The model reads such strings as failures, so they give an EA of 0 and a purchase quantity of 1 where the program reads the number. For an integer cell, `Orders.Quantity` returns it exactly, where `int(float(n))` rounds values beyond 2^53 in magnitude.
- Text.ToUpper: upper- and lower-casing are ASCII only; Python's full Unicode case mapping is not modelled.
- The catch-all exception handler of the rule loader is modelled only through its result: an unreadable rule sheet gives the empty table.
- Duplicate column names in a sheet, which pandas renames, are not modelled.
- Cell types after the openpyxl write-and-read round trip (an empty string read back as missing) are not modelled. Shading is stated on the rows as the distributor produced them.
- Where the behaviour is underdescribed, the model follows the code:
  - If the rule sheet lacks the component, seller or EA columns, keys are still created from the group column (or column 0); the result is not an empty table.
  - EA quantities and purchase quantities are not clamped: negative values pass through.

=== FILE: cells.dfy ===
/**
 * Spreadsheet cells as pandas hands them over, and the distributor's test for a
 * cell that holds nothing useful.
 */
module Cells {
  import opened Text
  import opened Numbers

  /**
   * A cell: `Blank` is a missing value (NaN, or None from openpyxl), `Text`
   * holds a string, and `Int` an integer. A floating-point cell is given as the
   * `Text` of its `str()` rendering everywhere: where it is read, and also where
   * it is copied unchanged into output fields. Its truthiness in the shading
   * test is therefore that of a non-empty text, so a float `0.0` under the
   * component-code header would count as a code, where the program treats it as
   * empty. The distributor only ever writes text into that column.
   */
  datatype Cell = Blank | Text(s: string) | Int(n: int)

  /** `str(c)` for a cell that is not missing. */
  function Render(c: Cell): string
    requires !c.Blank?
  {
    match c
    case Text(s) => s
    case Int(n) => IntToString(n)
  }

  /** `s.strip().lower()` is one of `''`, `'nan'`, `'none'`. */
  predicate BlankLikeText(s: string)
  {
    var t := ToLower(Strip(s));
    t == "" || t == "nan" || t == "none"
  }

  /**
   * A cell the distributor treats as empty: missing, or rendering to a string
   * whose stripped, lower-cased form is `''`, `'nan'` or `'none'`.
   */
  predicate BlankLike(c: Cell)
  {
    c.Blank? || BlankLikeText(Render(c))
  }

  /** Stripping a non-blank-like string once more keeps it non-blank-like. */
  lemma BlankLikeTextStable(s: string)
    ensures BlankLikeText(Strip(s)) == BlankLikeText(s)
  {
    StripIdempotent(s);
  }
}

=== FILE: expander.dfy ===
/**
 * Expanding one order row into one output row per component of its matched
 * rule (`distribute_order`). Every output row is a copy of the order row with
 * five fields written: the component code, the component's seller code, the
 * EA quantity (the component's EA times the multiplier), the original product
 * name and the original purchase quantity.
 */
module Expander {
  import opened Wrappers
  import opened Cells
  import opened Rows
  import opened Headers
  import opened RuleTables

  const CodeField := "구성 상품코드"
  const SellerField := "구성 상품 탑셀러 코드"
  const EaField := "EA 수량"
  const NameField := "원본 상품명"
  const QuantityField := "원본 구매 수량"

  /** The five fields the distributor writes into every output row. */
  predicate Written(f: string)
  {
    f == CodeField || f == SellerField || f == EaField || f == NameField || f == QuantityField
  }

  /** The index of the order row's product-name field, the first whose name has the product-name marker. */
  function NameColumn(order: Row): Option<nat>
  {
    FirstHeader(order.names, ProductName)
  }

  /** The index of the order row's purchase-quantity field, the first whose name has the quantity marker. */
  function QuantityColumn(order: Row): Option<nat>
  {
    FirstHeader(order.names, PurchaseQuantity)
  }

  /** The output row for one component (the loop body of `distribute_order`). */
  function ExpandedRow(order: Row, c: Component, m: int): Row
  {
    WithOriginals(order, WithComponent(order, c, m), m)
  }

  /** The copy of the order row with the component's code, seller code and EA quantity written. */
  function WithComponent(order: Row, c: Component, m: int): Row
  {
    Set(Set(Set(order, CodeField, Text(c.code)), SellerField, Text(c.seller)), EaField, Int(c.ea * m))
  }

  /** `row` with the original name (when the order has a name field) and the original quantity written. */
  function WithOriginals(order: Row, row: Row, m: int): Row
  {
    var named := match NameColumn(order)
      case Some(i) => Set(row, NameField, GetOr(order, order.names[i], Text("")))
      case None => row;
    var quantity := match QuantityColumn(order)
      case Some(i) => GetOr(order, order.names[i], Int(m))
      case None => Int(m);
    Set(named, QuantityField, quantity)
  }

  /**
   * What an output row holds: the order row's fields in their order, then
   * any of the five written fields it lacked. The EA quantity is the
   * component's EA times the multiplier. The original name is read from the
   * order's product-name field when it has one (and is otherwise left as the
   * order row had it); the original quantity is read from the order's
   * purchase-quantity field when it has one, and is the multiplier
   * otherwise. Every other field is the order row's own.
   */
  lemma ExpandedRowFields(order: Row, c: Component, m: int)
    ensures var r := ExpandedRow(order, c, m);
      && Get(r, CodeField) == Some(Text(c.code))
      && Get(r, SellerField) == Some(Text(c.seller))
      && Get(r, EaField) == Some(Int(c.ea * m))
      && Get(r, NameField) ==
        (match NameColumn(order) case Some(i) => Some(GetOr(order, order.names[i], Text(""))) case None => Get(order, NameField))
      && Get(r, QuantityField) ==
        Some(match QuantityColumn(order) case Some(i) => GetOr(order, order.names[i], Int(m)) case None => Int(m))
      && (forall g | !Written(g) :: Get(r, g) == Get(order, g))
      && order.names <= r.names
  {
    WithComponentFields(order, c, m);
    WithOriginalsFields(order, WithComponent(order, c, m), m);
  }

  lemma WithComponentFields(order: Row, c: Component, m: int)
    ensures var r := WithComponent(order, c, m);
      && Get(r, CodeField) == Some(Text(c.code))
      && Get(r, SellerField) == Some(Text(c.seller))
      && Get(r, EaField) == Some(Int(c.ea * m))
      && (forall g | g != CodeField && g != SellerField && g != EaField :: Get(r, g) == Get(order, g))
      && order.names <= r.names
  {
    var r1 := Set(order, CodeField, Text(c.code));
    var r2 := Set(r1, SellerField, Text(c.seller));
    SetFields(order, CodeField, Text(c.code));
    SetFields(r1, SellerField, Text(c.seller));
    SetFields(r2, EaField, Int(c.ea * m));
    assert order.names <= r1.names <= r2.names;
  }

  lemma WithOriginalsFields(order: Row, row: Row, m: int)
    ensures var r := WithOriginals(order, row, m);
      && Get(r, NameField) ==
        (match NameColumn(order) case Some(i) => Some(GetOr(order, order.names[i], Text(""))) case None => Get(row, NameField))
      && Get(r, QuantityField) ==
        Some(match QuantityColumn(order) case Some(i) => GetOr(order, order.names[i], Int(m)) case None => Int(m))
      && (forall g | g != NameField && g != QuantityField :: Get(r, g) == Get(row, g))
      && row.names <= r.names
  {
    var named := match NameColumn(order)
      case Some(i) => Set(row, NameField, GetOr(order, order.names[i], Text("")))
      case None => row;
    match NameColumn(order) {
      case Some(i) => SetFields(row, NameField, GetOr(order, order.names[i], Text("")));
      case None =>
    }
    var quantity := match QuantityColumn(order)
      case Some(i) => GetOr(order, order.names[i], Int(m))
      case None => Int(m);
    SetFields(named, QuantityField, quantity);
    assert row.names <= named.names;
  }

  /**
   * In a row pandas produced, the product-name and quantity fields that the
   * header search finds are present, so the original name and quantity are
   * their values; without a quantity field the original quantity is the
   * multiplier.
   */
  lemma OriginalsFromOrder(order: Row, c: Component, m: int)
    requires Valid(order)
    ensures var r := ExpandedRow(order, c, m);
      && (NameColumn(order).Some? ==> Get(r, NameField) == Get(order, order.names[NameColumn(order).value]))
      && (QuantityColumn(order).Some? ==> Get(r, QuantityField) == Get(order, order.names[QuantityColumn(order).value]))
      && (QuantityColumn(order).None? ==> Get(r, QuantityField) == Some(Int(m)))
  {
    ExpandedRowFields(order, c, m);
  }

  /** The rows for a list of components, one per component, in component order. */
  function Expansion(order: Row, comps: seq<Component>, m: int): (r: seq<Row>)
    ensures |r| == |comps|
    ensures forall i | 0 <= i < |comps| :: r[i] == ExpandedRow(order, comps[i], m)
  {
    if comps == [] then []
    else
      var front := Expansion(order, comps[..|comps| - 1], m);
      assert comps == comps[..|comps| - 1] + [comps[|comps| - 1]];
      front + [ExpandedRow(order, comps[|comps| - 1], m)]
  }

  /**
   * `distribute_order`: builds the list of output rows, one per component,
   * by copying the order row and writing the five fields.
   */
  method DistributeOrder(order: Row, comps: seq<Component>, m: int) returns (out: seq<Row>)
    ensures out == Expansion(order, comps, m)
  {
    out := [];
    var k := 0;
    while k < |comps|
      invariant 0 <= k <= |comps|
      invariant out == Expansion(order, comps[..k], m)
    {
      var row := CopyWith(order, comps[k], m);
      ExpansionStep(order, comps, m, k);
      out := out + [row];
      k := k + 1;
    }
    assert comps[..k] == comps;
  }

  /** The rows for a non-empty list: those of all but the last component, then the last one's. */
  lemma ExpansionLast(order: Row, comps: seq<Component>, m: int)
    requires comps != []
    ensures Expansion(order, comps, m)
      == Expansion(order, comps[..|comps| - 1], m) + [ExpandedRow(order, comps[|comps| - 1], m)]
  {
  }

  /** The rows for the first `k + 1` components: those for the first `k`, then component `k`'s. */
  lemma ExpansionStep(order: Row, comps: seq<Component>, m: int, k: nat)
    requires k < |comps|
    ensures Expansion(order, comps[..k + 1], m) == Expansion(order, comps[..k], m) + [ExpandedRow(order, comps[k], m)]
  {
    ExpansionLast(order, comps[..k + 1], m);
    assert comps[..k + 1][..k] == comps[..k];
  }

  /** One pass of the loop: copy the order row and write the five fields. */
  method CopyWith(order: Row, c: Component, m: int) returns (row: Row)
    ensures row == ExpandedRow(order, c, m)
  {
    row := order;
    row := Set(row, CodeField, Text(c.code));
    row := Set(row, SellerField, Text(c.seller));
    row := Set(row, EaField, Int(c.ea * m));
    ghost var stamped := row;
    var nameCol := NameColumn(order);
    if nameCol.Some? {
      row := Set(row, NameField, GetOr(order, order.names[nameCol.value], Text("")));
    }
    var quantityCol := QuantityColumn(order);
    if quantityCol.Some? {
      row := Set(row, QuantityField, GetOr(order, order.names[quantityCol.value], Int(m)));
    } else {
      row := Set(row, QuantityField, Int(m));
    }
    assert row == WithOriginals(order, stamped, m);
  }

  /** Output rows follow the component list: expanding `a + b` is expanding `a`, then `b`. */
  lemma {:induction false} ExpansionAppend(order: Row, a: seq<Component>, b: seq<Component>, m: int)
    ensures Expansion(order, a + b, m) == Expansion(order, a, m) + Expansion(order, b, m)
  {
    var l := Expansion(order, a + b, m);
    var r := Expansion(order, a, m) + Expansion(order, b, m);
    assert |l| == |r|;
    forall i | 0 <= i < |l|
      ensures l[i] == r[i]
    {
      if i < |a| {
        assert (a + b)[i] == a[i];
      } else {
        assert (a + b)[i] == b[i - |a|];
      }
    }
  }
}

=== FILE: headers.dfy ===
/**
 * Column discovery: each column the distributor needs is the first header that
 * contains that column's marker words.
 */
module Headers {
  import opened Wrappers
  import opened Text

  /** The columns the distributor looks for. */
  datatype Marker =
    | GroupKey          // rules sheet: the product-group ("shipping" / "combined packing" / box) column
    | ComponentCode     // rules sheet: component product code
    | SellerCode        // rules sheet: component top-seller code
    | EaQuantity        // rules sheet: EA quantity
    | ProductName       // orders sheet: product name
    | PurchaseQuantity  // orders sheet: purchase quantity
    | ShadeKey          // result sheet: the component-code column that decides row shading

  /** Header `h` (its `str()`) carries the marker words of `m`. */
  predicate Marks(m: Marker, h: string)
  {
    match m
    case GroupKey => Contains(h, "출고") || Contains(h, "합포장") || Contains(ToUpper(h), "BOX")
    case ComponentCode => Contains(h, "구성") && Contains(h, "상품") && Contains(h, "코드")
    case SellerCode => Contains(h, "탑셀러") || Contains(ToLower(h), "seller")
    case EaQuantity => Contains(h, "EA") && Contains(h, "수량")
    case ProductName => Contains(h, "상품명") || Contains(h, "Commodity")
    case PurchaseQuantity => Contains(h, "구매 수량") || Contains(h, "Quantity")
    case ShadeKey => Contains(h, "구성 상품코드")
  }

  /** The index of the first header marked by `m`, or `None` when no header is. */
  function FirstHeader(headers: seq<string>, m: Marker): (r: Option<nat>)
    ensures r.Some? ==> r.value < |headers| && Marks(m, headers[r.value])
    ensures r.Some? ==> forall j | 0 <= j < r.value :: !Marks(m, headers[j])
    ensures r.None? <==> forall j | 0 <= j < |headers| :: !Marks(m, headers[j])
  {
    if headers == [] then None
    else if Marks(m, headers[0]) then Some(0)
    else match FirstHeader(headers[1..], m)
      case None => None
      case Some(i) => Some(i + 1)
  }

  /** A marked header is non-empty, so the source's truthiness test on it always passes. */
  lemma MarkedHeaderNonEmpty(m: Marker, h: string)
    requires Marks(m, h)
    ensures h != ""
  {
    if h == "" {
      match m
      case GroupKey =>
        MissingFirstChar(h, "출고");
        MissingFirstChar(h, "합포장");
        MissingFirstChar(ToUpper(h), "BOX");
      case ComponentCode => MissingFirstChar(h, "구성");
      case SellerCode =>
        MissingFirstChar(h, "탑셀러");
        MissingFirstChar(ToLower(h), "seller");
      case EaQuantity => MissingFirstChar(h, "EA");
      case ProductName =>
        MissingFirstChar(h, "상품명");
        MissingFirstChar(h, "Commodity");
      case PurchaseQuantity =>
        MissingFirstChar(h, "구매 수량");
        MissingFirstChar(h, "Quantity");
      case ShadeKey => MissingFirstChar(h, "구성 상품코드");
    }
  }
}

=== FILE: matcher.dfy ===
/**
 * Matching a product name against the rule table (`match_product_to_rule`).
 * Five tiers are tried in a fixed priority order. Each tier has a test on the
 * upper-cased product name and a test on the upper-cased rule keys; a tier
 * whose name test holds scans the keys in insertion order and returns the
 * first one its key test accepts, together with that key's component list.
 */
module Matcher {
  import opened Wrappers
  import opened Text
  import opened Cells
  import opened RuleTables

  /** The five tiers, named after the product family and stage each one is for. */
  datatype Tier = ProfuturaPre | Pronutra1 | Pronutra2 | Profutura1 | Profutura2

  /** Position in the cascade: lower is tried first. */
  function Rank(t: Tier): nat
  {
    match t
    case ProfuturaPre => 1
    case Pronutra1 => 2
    case Pronutra2 => 3
    case Profutura1 => 4
    case Profutura2 => 5
  }

  /** The tier's test on the upper-cased product name. */
  predicate NameFits(t: Tier, n: string)
  {
    match t
    case ProfuturaPre => Contains(n, "PROFUTURA") && Contains(n, "PRE")
    case Pronutra1 => Contains(n, "PRONUTRA") && (Contains(n, "1") || Contains(n, "VP 1"))
    case Pronutra2 => Contains(n, "PRONUTRA") && (Contains(n, "2") || Contains(n, "VP 2"))
    case Profutura1 => Contains(n, "PROFUTURA") && Contains(n, "1") && !Contains(n, "PRE")
    case Profutura2 => Contains(n, "PROFUTURA") && Contains(n, "2") && !Contains(n, "PRE")
  }

  /** The tier's test on an upper-cased rule key. */
  predicate KeyFits(t: Tier, k: string)
  {
    match t
    case ProfuturaPre => Contains(k, "3PF PRE") || Contains(k, "3PFPRE") || Contains(k, "PRE")
    case Pronutra1 => Contains(k, "3PN1+IF") || Contains(k, "3PN 1+IF")
    case Pronutra2 => Contains(k, "3PN2+FO") || Contains(k, "3PN 2+FO")
    case Profutura1 => (Contains(k, "3PF 1+IF") || Contains(k, "3PF1+IF")) && !Contains(k, "PRE")
    case Profutura2 => (Contains(k, "3PF 2+FO") || Contains(k, "3PF2+FO")) && !Contains(k, "PRE")
  }

  /** The tier's key scan: the first entry, in insertion order, whose upper-cased key fits. */
  function FirstFit(t: Tier, table: Table): (r: Option<nat>)
    ensures r.Some? ==> r.value < |table| && KeyFits(t, ToUpper(table[r.value].key))
    ensures r.Some? ==> forall j | 0 <= j < r.value :: !KeyFits(t, ToUpper(table[j].key))
    ensures r.None? <==> forall j | 0 <= j < |table| :: !KeyFits(t, ToUpper(table[j].key))
  {
    if table == [] then None
    else if KeyFits(t, ToUpper(table[0].key)) then Some(0)
    else match FirstFit(t, table[1..])
      case None => None
      case Some(i) => Some(i + 1)
  }

  /** Tier `t` fires: its name test holds and some key of the table fits it. */
  predicate Fires(t: Tier, n: string, table: Table)
  {
    NameFits(t, n) && exists j | 0 <= j < |table| :: KeyFits(t, ToUpper(table[j].key))
  }

  /** The if-cascade: the first tier, in priority order, that fires. */
  function Winner(n: string, table: Table): (r: Option<Tier>)
    ensures r.Some? ==> Fires(r.value, n, table)
    ensures r.Some? ==> forall u | Rank(u) < Rank(r.value) :: !Fires(u, n, table)
    ensures r.None? <==> forall u :: !Fires(u, n, table)
  {
    if TierHits(ProfuturaPre, n, table) then Some(ProfuturaPre)
    else if TierHits(Pronutra1, n, table) then Some(Pronutra1)
    else if TierHits(Pronutra2, n, table) then Some(Pronutra2)
    else if TierHits(Profutura1, n, table) then Some(Profutura1)
    else if TierHits(Profutura2, n, table) then Some(Profutura2)
    else None
  }

  /** One `if` of the cascade: the name test, then the key scan. */
  predicate TierHits(t: Tier, n: string, table: Table)
    ensures TierHits(t, n, table) <==> Fires(t, n, table)
  {
    NameFits(t, n) && FirstFit(t, table).Some?
  }

  /** The upper-cased product name, `str(product_name).upper()`. */
  function UpperName(name: Cell): string
    requires !name.Blank?
  {
    ToUpper(Render(name))
  }

  /**
   * `match_product_to_rule`: no match for a missing name or when no tier
   * fires; otherwise the entry (key and components) the winning tier's scan
   * finds.
   */
  function Match(name: Cell, table: Table): (r: Option<Rule>)
    ensures r.None? <==> name.Blank? || forall u :: !Fires(u, UpperName(name), table)
    ensures r.Some? ==> r.value in table
  {
    if name.Blank? then None
    else match Winner(UpperName(name), table)
      case None => None
      case Some(t) => Some(table[FirstFit(t, table).value])
  }

  // ---------------------------------------------------------------------------
  // Properties of the cascade

  /**
   * What a match is: if tier `u` is the highest-priority tier that fires and
   * entry `i` is the first whose key fits `u`, the match is entry `i`.
   */
  lemma MatchIsFirstFitOfWinner(name: Cell, table: Table, u: Tier, i: nat)
    requires !name.Blank? && NameFits(u, UpperName(name))
    requires i < |table| && KeyFits(u, ToUpper(table[i].key))
    requires forall j | 0 <= j < i :: !KeyFits(u, ToUpper(table[j].key))
    requires forall v | Rank(v) < Rank(u) :: !Fires(v, UpperName(name), table)
    ensures Match(name, table) == Some(table[i])
  {
    WinnerIs(UpperName(name), table, u, i);
    FirstFitIs(u, table, i);
  }

  /** The tier that fires and has no higher-priority tier firing is the winner. */
  lemma WinnerIs(n: string, table: Table, u: Tier, i: nat)
    requires NameFits(u, n) && i < |table| && KeyFits(u, ToUpper(table[i].key))
    requires forall v | Rank(v) < Rank(u) :: !Fires(v, n, table)
    ensures Winner(n, table) == Some(u)
  {
    assert Fires(u, n, table);
    var w := Winner(n, table);
    assert !(Rank(u) < Rank(w.value)) && !(Rank(w.value) < Rank(u));
    RankInjective(u, w.value);
  }

  /** The scan finds the first fitting entry. */
  lemma FirstFitIs(u: Tier, table: Table, i: nat)
    requires i < |table| && KeyFits(u, ToUpper(table[i].key))
    requires forall j | 0 <= j < i :: !KeyFits(u, ToUpper(table[j].key))
    ensures FirstFit(u, table) == Some(i)
  {
    var f := FirstFit(u, table);
    assert !(f.value < i) && !(i < f.value);
  }

  /** Each tier has its own place in the cascade. */
  lemma RankInjective(a: Tier, b: Tier)
    requires Rank(a) == Rank(b)
    ensures a == b
  {
  }

  /** The returned pair is the table's own: in a dict, looking up the returned key gives the returned list. */
  lemma MatchIsEntry(name: Cell, table: Table)
    requires DistinctKeys(table) && Match(name, table).Some?
    ensures Lookup(table, Match(name, table).value.key) == Some(Match(name, table).value.components)
  {
    var r := Match(name, table).value;
    var i :| 0 <= i < |table| && table[i] == r;
    LookupEntry(table, i);
  }

  /** The first tier's key test, three alternatives in the source, is the same as "contains `PRE`". */
  lemma ProfuturaPreKeyTest(k: string)
    ensures KeyFits(ProfuturaPre, k) <==> Contains(k, "PRE")
  {
    if Contains(k, "3PF PRE") {
      assert OccursAt("3PF PRE", "PRE", 4);
      ContainsTransitive(k, "3PF PRE", "PRE");
    }
    if Contains(k, "3PFPRE") {
      assert OccursAt("3PFPRE", "PRE", 3);
      ContainsTransitive(k, "3PFPRE", "PRE");
    }
  }

  /**
   * Priority of the first tier: for a name with both `PROFUTURA` and `PRE`,
   * the first key that contains `PRE` wins, whatever the other tiers would
   * have found.
   */
  lemma ProfuturaPrePriority(name: Cell, table: Table, i: nat)
    requires !name.Blank? && Contains(UpperName(name), "PROFUTURA") && Contains(UpperName(name), "PRE")
    requires i < |table| && Contains(ToUpper(table[i].key), "PRE")
    requires forall j | 0 <= j < i :: !Contains(ToUpper(table[j].key), "PRE")
    ensures Match(name, table) == Some(table[i])
  {
    ProfuturaPreKeyTest(ToUpper(table[i].key));
    forall j | 0 <= j < i
      ensures !KeyFits(ProfuturaPre, ToUpper(table[j].key))
    {
      ProfuturaPreKeyTest(ToUpper(table[j].key));
    }
    MatchIsFirstFitOfWinner(name, table, ProfuturaPre, i);
  }

  /**
   * The two plain Profutura tiers never win for a name that contains `PRE`,
   * and when they win, the key they return does not contain `PRE`.
   */
  lemma ProfuturaTiersAvoidPre(name: Cell, table: Table)
    requires !name.Blank?
    ensures var w := Winner(UpperName(name), table);
      w == Some(Profutura1) || w == Some(Profutura2) ==>
        !Contains(UpperName(name), "PRE") && !Contains(ToUpper(Match(name, table).value.key), "PRE")
  {
    var w := Winner(UpperName(name), table);
    if w == Some(Profutura1) || w == Some(Profutura2) {
      assert TierHits(w.value, UpperName(name), table);
    }
  }

  /**
   * A name with both `PROFUTURA` and `PRE` is never handled by the plain
   * Profutura tiers, even when it also contains a `1` or a `2`: when no key
   * contains `PRE`, only the Pronutra tiers remain.
   */
  lemma PreNameSkipsProfutura(name: Cell, table: Table)
    requires !name.Blank? && Contains(UpperName(name), "PROFUTURA") && Contains(UpperName(name), "PRE")
    ensures Winner(UpperName(name), table) != Some(Profutura1)
    ensures Winner(UpperName(name), table) != Some(Profutura2)
    ensures Match(name, table).Some? && Winner(UpperName(name), table) != Some(ProfuturaPre) ==>
      forall j | 0 <= j < |table| :: !Contains(ToUpper(table[j].key), "PRE")
  {
    var n := UpperName(name);
    forall j | 0 <= j < |table| && Contains(ToUpper(table[j].key), "PRE")
      ensures Winner(n, table) == Some(ProfuturaPre)
    {
      ProfuturaPreKeyTest(ToUpper(table[j].key));
      assert Fires(ProfuturaPre, n, table);
    }
  }

  /** A table none of whose keys fits any tier matches no name. */
  lemma NoFittingKeyNoMatch(name: Cell, table: Table)
    requires forall u, j | 0 <= j < |table| :: !KeyFits(u, ToUpper(table[j].key))
    ensures Match(name, table) == None
  {
  }
}

=== FILE: numbers.dfy ===
/**
 * Decimal numbers as the distributor reads and writes them: Python's `str(n)`
 * for integers, `int(s)` on a string, and `int(float(s))` on a string written
 * in plain decimal notation.
 */
module Numbers {
  import opened Wrappers
  import opened Text

  predicate IsDigit(c: char)
  {
    '0' <= c <= '9'
  }

  predicate AllDigits(s: string)
  {
    forall i | 0 <= i < |s| :: IsDigit(s[i])
  }

  function DigitValue(c: char): nat
    requires IsDigit(c)
  {
    c as int - '0' as int
  }

  function DigitChar(d: nat): (c: char)
    requires d < 10
    ensures IsDigit(c) && DigitValue(c) == d
  {
    ('0' as int + d) as char
  }

  /** The value of a string of decimal digits, most significant first ("" is 0). */
  function Value(s: string): nat
    requires AllDigits(s)
  {
    if s == [] then 0 else 10 * Value(s[..|s| - 1]) + DigitValue(s[|s| - 1])
  }

  /** The shortest decimal digits of `n`; reading them back gives `n`. */
  function Digits(n: nat): (r: string)
    ensures r != [] && AllDigits(r)
    ensures Value(r) == n
    decreases n
  {
    if n < 10 then [DigitChar(n)]
    else
      var r := Digits(n / 10) + [DigitChar(n % 10)];
      assert r[..|r| - 1] == Digits(n / 10);
      r
  }

  /** Python's `str(n)` for an `int`. */
  function IntToString(n: int): string
  {
    if n < 0 then "-" + Digits(-n) else Digits(n)
  }

  /** An optional `+` or `-` at the front: the sign and what follows it. */
  function SplitSign(t: string): (int, string)
  {
    if t != [] && t[0] == '-' then (-1, t[1..])
    else if t != [] && t[0] == '+' then (1, t[1..])
    else (1, t)
  }

  /**
   * Python's `int(s)` on strings of ASCII decimal digits: surrounding
   * whitespace, an optional sign and at least one digit give the value, and
   * any other string is `None`. Python's `int()` also accepts underscores
   * between digits and non-ASCII decimal digits; those read as `None` here.
   */
  function ParseInt(s: string): Option<int>
  {
    var (sign, body) := SplitSign(Strip(s));
    if body != [] && AllDigits(body) then Some(sign * Value(body)) else None
  }

  /** The index of the first `.` in `s`. */
  function DotIndex(s: string): (r: Option<nat>)
    ensures r.Some? ==> r.value < |s| && s[r.value] == '.' && '.' !in s[..r.value]
    ensures r.None? ==> '.' !in s
  {
    if s == [] then None
    else if s[0] == '.' then Some(0)
    else match DotIndex(s[1..])
      case None => None
      case Some(i) =>
        assert s[..i + 1] == [s[0]] + s[1..][..i];
        Some(i + 1)
  }

  /**
   * Python's `int(float(s))` on a string in plain decimal notation: an optional
   * sign, digits with at most one decimal point and at least one digit overall.
   * The value is read exactly and the fraction is dropped, which truncates
   * toward zero; Python first rounds to the nearest double, so a fraction with
   * more digits than a double holds can round up to the next integer.
   * Exponents, underscores and non-ASCII digits, which Python accepts, read as
   * `None` here.
   */
  function ParseDecimal(s: string): Option<int>
  {
    var (sign, body) := SplitSign(Strip(s));
    match DotIndex(body)
    case None => if body != [] && AllDigits(body) then Some(sign * Value(body)) else None
    case Some(d) =>
      var whole, fraction := body[..d], body[d + 1..];
      if AllDigits(whole) && AllDigits(fraction) && |whole| + |fraction| > 0
      then Some(sign * Value(whole))
      else None
  }

  /** `str(n)` has no whitespace and no letters: nothing strips from it. */
  lemma IntToStringTrimmed(n: int)
    ensures Trimmed(IntToString(n))
    ensures forall i | 0 <= i < |IntToString(n)| :: IntToString(n)[i] == '-' || IsDigit(IntToString(n)[i])
  {
  }

  /** Round trip: `int(str(n)) == n`. */
  lemma ParseIntRoundTrip(n: int)
    ensures ParseInt(IntToString(n)) == Some(n)
  {
    IntToStringTrimmed(n);
    StripTrimmed(IntToString(n));
    var t := IntToString(n);
    if n < 0 {
      assert t[1..] == Digits(-n);
    } else {
      assert IsDigit(t[0]);
    }
  }

  /** Where `int(s)` succeeds, the `int(float(s))` fallback would give the same value. */
  lemma ParseDecimalExtendsParseInt(s: string)
    requires ParseInt(s).Some?
    ensures ParseDecimal(s) == ParseInt(s)
  {
    var (sign, body) := SplitSign(Strip(s));
    assert forall i | 0 <= i < |body| :: body[i] != '.' by {
      forall i | 0 <= i < |body| ensures body[i] != '.' { assert IsDigit(body[i]); }
    }
  }

  /** The first `.` after a dot-free prefix is the one that follows it. */
  lemma {:induction false} DotIndexAfter(x: string, y: string)
    requires '.' !in x
    ensures DotIndex(x + "." + y) == Some(|x|)
    decreases |x|
  {
    if x != [] {
      assert (x + "." + y)[1..] == x[1..] + "." + y;
      DotIndexAfter(x[1..], y);
    }
  }

  /** A trimmed, signed `digits.fraction` string reads as its signed whole part. */
  lemma ParseDecimalOfFraction(s: string, sign: int, digits: string, fraction: string)
    requires Trimmed(s) && SplitSign(s) == (sign, digits + "." + fraction)
    requires digits != [] && AllDigits(digits) && AllDigits(fraction)
    ensures ParseDecimal(s) == Some(sign * Value(digits))
  {
    StripTrimmed(s);
    var body := digits + "." + fraction;
    assert '.' !in digits by {
      forall i | 0 <= i < |digits| ensures digits[i] != '.' { assert IsDigit(digits[i]); }
    }
    DotIndexAfter(digits, fraction);
    assert body[..|digits|] == digits;
    assert body[|digits| + 1..] == fraction;
  }

  /**
   * On the model's exact reading of a plain decimal, `str(n) + "." + f` reads
   * as `n`: the fraction is dropped, truncating toward zero.
   */
  lemma ParseDecimalTruncates(n: int, fraction: string)
    requires AllDigits(fraction)
    ensures ParseDecimal(IntToString(n) + "." + fraction) == Some(n)
  {
    var digits := Digits(if n < 0 then -n else n);
    DecimalTrimmed(n, fraction);
    DecimalSign(n, fraction);
    ParseDecimalOfFraction(IntToString(n) + "." + fraction, if n < 0 then -1 else 1, digits, fraction);
  }

  /** `str(n) + "." + f` splits into the sign of `n` and the digits of its magnitude, the point and `f`. */
  lemma DecimalSign(n: int, fraction: string)
    ensures SplitSign(IntToString(n) + "." + fraction)
      == (if n < 0 then -1 else 1, Digits(if n < 0 then -n else n) + "." + fraction)
  {
    if n < 0 {
      NegativeSign(-n, fraction);
    } else {
      PlainSign(n, fraction);
    }
  }

  lemma NegativeSign(k: nat, fraction: string)
    requires k > 0
    ensures SplitSign("-" + Digits(k) + "." + fraction) == (-1, Digits(k) + "." + fraction)
  {
    assert ("-" + Digits(k) + "." + fraction)[1..] == Digits(k) + "." + fraction;
  }

  lemma PlainSign(k: nat, fraction: string)
    ensures SplitSign(Digits(k) + "." + fraction) == (1, Digits(k) + "." + fraction)
  {
    var digits := Digits(k);
    assert IsDigit(digits[0]);
    assert (digits + "." + fraction)[0] == digits[0];
  }

  /** `str(n) + "." + f` has no whitespace at its ends. */
  lemma DecimalTrimmed(n: int, fraction: string)
    requires AllDigits(fraction)
    ensures Trimmed(IntToString(n) + "." + fraction)
  {
    var s := IntToString(n) + "." + fraction;
    IntToStringTrimmed(n);
    assert s[0] == IntToString(n)[0];
    if fraction == [] {
      assert s[|s| - 1] == '.';
    } else {
      assert s[|s| - 1] == fraction[|fraction| - 1];
    }
  }

  /** A trimmed string starting with anything but a sign, a digit or a point is no number. */
  lemma NotANumber(s: string)
    requires Trimmed(s) && s != [] && !IsDigit(s[0]) && s[0] !in {'-', '+', '.'}
    ensures ParseInt(s) == None && ParseDecimal(s) == None
  {
    StripTrimmed(s);
    assert SplitSign(s) == (1, s);
    match DotIndex(s)
    case None =>
    case Some(d) =>
      assert d > 0 && s[..d][0] == s[0];
  }
}

=== FILE: orders.dfy ===
/**
 * The order run (`process_orders`): read the order sheet and the rule table,
 * find the product-name and purchase-quantity columns, and turn every order
 * line, in order, into its output rows: the expansion of its matched rule, or
 * a single passthrough row when no rule with components matches.
 */
module Orders {
  import opened Wrappers
  import opened Text
  import opened Numbers
  import opened Cells
  import opened Rows
  import opened Headers
  import opened RuleTables
  import opened RuleBuilder
  import opened Matcher
  import opened Expander

  /** The order sheet: its column headers and its lines. */
  datatype OrderSheet = OrderSheet(columns: seq<string>, lines: seq<seq<Cell>>)

  /** How a run ends. */
  datatype Outcome =
    | ReadFailed                    // the order sheet could not be read; reported, nothing written
    | NoRules                       // the rule table is empty; reported, nothing written
    | NoNameColumn                  // no header names the product; reported, nothing written
    | Distributed(rows: seq<Row>)   // the rows of the result sheet

  /**
   * The purchase quantity of an order: `int(float(q))` for a present value,
   * 1 for a missing one and 1 when the conversion fails. Not clamped.
   */
  function Quantity(raw: Cell): int
  {
    match raw
    case Blank => 1
    case Int(n) => n
    case Text(s) =>
      match ParseDecimal(s)
      case Some(v) => v
      case None => 1
  }

  /** The order row kept as it is, with empty component fields and the quantity as its EA. */
  function Passthrough(row: Row, name: Cell, q: int): Row
  {
    var blanked := Set(Set(row, CodeField, Text("")), SellerField, Text(""));
    Set(Set(Set(blanked, EaField, Int(q)), NameField, name), QuantityField, Int(q))
  }

  /**
   * A passthrough row: empty component code and seller code, EA and original
   * quantity equal to the purchase quantity, original name equal to the
   * product-name cell, and every other field as in the order row.
   */
  lemma PassthroughFields(row: Row, name: Cell, q: int)
    ensures var r := Passthrough(row, name, q);
      && Get(r, CodeField) == Some(Text(""))
      && Get(r, SellerField) == Some(Text(""))
      && Get(r, EaField) == Some(Int(q))
      && Get(r, NameField) == Some(name)
      && Get(r, QuantityField) == Some(Int(q))
      && (forall g | !Written(g) :: Get(r, g) == Get(row, g))
      && row.names <= r.names
  {
    var blanked := Set(Set(row, CodeField, Text("")), SellerField, Text(""));
    BlankedFields(row);
    var r3 := Set(blanked, EaField, Int(q));
    var r4 := Set(r3, NameField, name);
    SetFields(blanked, EaField, Int(q));
    SetFields(r3, NameField, name);
    SetFields(r4, QuantityField, Int(q));
    assert blanked.names <= r3.names <= r4.names;
  }

  /** Blanking the two code fields changes nothing else. */
  lemma BlankedFields(row: Row)
    ensures var r := Set(Set(row, CodeField, Text("")), SellerField, Text(""));
      && Get(r, CodeField) == Some(Text(""))
      && Get(r, SellerField) == Some(Text(""))
      && (forall g | g != CodeField && g != SellerField :: Get(r, g) == Get(row, g))
      && row.names <= r.names
  {
    var r1 := Set(row, CodeField, Text(""));
    SetFields(row, CodeField, Text(""));
    SetFields(r1, SellerField, Text(""));
  }

  function NameOf(row: Row, nameCol: string): Cell
  {
    GetOr(row, nameCol, Text(""))
  }

  /** The purchase quantity of an order row; the raw value is 1 without a quantity column. */
  function QuantityOf(row: Row, quantityCol: Option<string>): int
  {
    Quantity(if quantityCol.Some? then GetOr(row, quantityCol.value, Int(1)) else Int(1))
  }

  /** A match that leads to expansion: a rule whose key and component list are both non-empty. */
  predicate Usable(m: Option<Rule>)
  {
    m.Some? && m.value.key != "" && m.value.components != []
  }

  /** The row is expanded: its name matched a usable rule. */
  predicate Expands(table: Table, nameCol: string, row: Row)
  {
    Usable(Match(NameOf(row, nameCol), table))
  }

  /** The output rows of an order row given its match, its name cell and its quantity. */
  function Output(m: Option<Rule>, row: Row, name: Cell, q: int): seq<Row>
  {
    if Usable(m) then Expansion(row, m.value.components, q) else [Passthrough(row, name, q)]
  }

  /** The output rows of one order row (the loop body of `process_orders`). */
  function RowOutput(table: Table, nameCol: string, quantityCol: Option<string>, row: Row): seq<Row>
  {
    Output(Match(NameOf(row, nameCol), table), row, NameOf(row, nameCol), QuantityOf(row, quantityCol))
  }

  /** The output rows of one order line, read as a row of the given columns. */
  function LineOutput(table: Table, nameCol: string, quantityCol: Option<string>, columns: seq<string>):
    seq<Cell> -> seq<Row>
  {
    line => RowOutput(table, nameCol, quantityCol, RowOf(columns, line))
  }

  /** The outputs of `lines`, line by line in input order, joined. */
  function Concat(f: seq<Cell> -> seq<Row>, lines: seq<seq<Cell>>): seq<Row>
  {
    if lines == [] then [] else Concat(f, lines[..|lines| - 1]) + f(lines[|lines| - 1])
  }

  /** The output rows of all lines, line by line in input order. */
  function Distribution(table: Table, nameCol: string, quantityCol: Option<string>, columns: seq<string>,
                        lines: seq<seq<Cell>>): seq<Row>
  {
    Concat(LineOutput(table, nameCol, quantityCol, columns), lines)
  }

  /** The quantity column's header, if there is one. */
  function QuantityHeader(columns: seq<string>): Option<string>
  {
    match FirstHeader(columns, PurchaseQuantity)
    case Some(j) => Some(columns[j])
    case None => None
  }

  /** The outcome of a run on an order sheet (if it could be read) and a rule table. */
  function Run(orders: Option<OrderSheet>, table: Table): Outcome
  {
    if orders.None? then ReadFailed
    else if table == [] then NoRules
    else
      var columns := orders.value.columns;
      match FirstHeader(columns, ProductName)
      case None => NoNameColumn
      case Some(i) => Distributed(Distribution(table, columns[i], QuantityHeader(columns), columns, orders.value.lines))
  }

  /**
   * `process_orders`: stops with nothing written when the order sheet cannot
   * be read, when the rule table is empty or when no column names the
   * product; otherwise collects the output rows of every line in order.
   */
  method ProcessOrders(orders: Option<OrderSheet>, rules: Option<Sheet>) returns (outcome: Outcome)
    ensures outcome == Run(orders, if rules.Some? then RulesOf(rules.value) else [])
  {
    if orders.None? {
      return ReadFailed;
    }
    var table := LoadRules(rules);
    if table == [] {
      return NoRules;
    }
    var columns := orders.value.columns;
    var lines := orders.value.lines;
    var nameIndex := FirstHeader(columns, ProductName);
    var quantityCol := QuantityHeader(columns);
    if nameIndex.None? {
      return NoNameColumn;
    }
    var nameCol := columns[nameIndex.value];
    var out := DistributeLines(table, nameCol, quantityCol, columns, lines);
    return Distributed(out);
  }

  /** The order loop: the output rows of every line, in order. */
  method DistributeLines(table: Table, nameCol: string, quantityCol: Option<string>, columns: seq<string>,
                         lines: seq<seq<Cell>>) returns (out: seq<Row>)
    ensures out == Distribution(table, nameCol, quantityCol, columns, lines)
  {
    ghost var f := LineOutput(table, nameCol, quantityCol, columns);
    out := [];
    var i := 0;
    while i < |lines|
      invariant 0 <= i <= |lines|
      invariant out == Concat(f, lines[..i])
    {
      var produced := ProcessRow(table, nameCol, quantityCol, RowOf(columns, lines[i]));
      assert produced == f(lines[i]);
      ConcatStep(f, lines, i);
      out := out + produced;
      i := i + 1;
    }
    assert lines[..i] == lines;
  }

  /**
   * One pass of the order loop: read the name and the quantity, match the
   * name, and produce the expansion or the passthrough row.
   */
  method ProcessRow(table: Table, nameCol: string, quantityCol: Option<string>, row: Row) returns (produced: seq<Row>)
    ensures produced == RowOutput(table, nameCol, quantityCol, row)
  {
    var name := GetOr(row, nameCol, Text(""));
    var raw := if quantityCol.Some? then GetOr(row, quantityCol.value, Int(1)) else Int(1);
    var q := Quantity(raw);
    var m := Match(name, table);
    if m.Some? && m.value.key != "" && m.value.components != [] {
      produced := DistributeOrder(row, m.value.components, q);
    } else {
      var newRow := row;
      newRow := Set(newRow, CodeField, Text(""));
      newRow := Set(newRow, SellerField, Text(""));
      newRow := Set(newRow, EaField, Int(q));
      newRow := Set(newRow, NameField, name);
      newRow := Set(newRow, QuantityField, Int(q));
      produced := [newRow];
    }
  }

  // ---------------------------------------------------------------------------
  // Properties

  /**
   * Per order row: an expanded row gives one output row per component of the
   * matched rule, in component order; any other row gives exactly one
   * passthrough row.
   */
  lemma RowOutputShape(table: Table, nameCol: string, quantityCol: Option<string>, row: Row)
    ensures var out := RowOutput(table, nameCol, quantityCol, row);
      var q := QuantityOf(row, quantityCol);
      && (Expands(table, nameCol, row) ==>
            var comps := Match(NameOf(row, nameCol), table).value.components;
            |out| == |comps| && forall k | 0 <= k < |comps| :: out[k] == ExpandedRow(row, comps[k], q))
      && (!Expands(table, nameCol, row) ==> out == [Passthrough(row, NameOf(row, nameCol), q)])
  {
  }

  /** A sheet of one line, with a rule table and a product-name column, gives that line's rows. */
  lemma RunSingleLine(columns: seq<string>, line: seq<Cell>, table: Table, i: nat)
    requires table != [] && FirstHeader(columns, ProductName) == Some(i)
    ensures Run(Some(OrderSheet(columns, [line])), table)
      == Distributed(RowOutput(table, columns[i], QuantityHeader(columns), RowOf(columns, line)))
  {
    ConcatSingle(LineOutput(table, columns[i], QuantityHeader(columns), columns), line);
  }

  /** The output for a single line is that line's output. */
  lemma ConcatSingle(f: seq<Cell> -> seq<Row>, line: seq<Cell>)
    ensures Concat(f, [line]) == f(line)
  {
    ConcatLast(f, [line]);
    assert [line][..0] == [];
  }

  /** The output is grouped by order line in input order: lines `a + b` give the rows of `a`, then those of `b`. */
  lemma DistributionAppend(table: Table, nameCol: string, quantityCol: Option<string>,
                           columns: seq<string>, a: seq<seq<Cell>>, b: seq<seq<Cell>>)
    ensures Distribution(table, nameCol, quantityCol, columns, a + b)
      == Distribution(table, nameCol, quantityCol, columns, a) + Distribution(table, nameCol, quantityCol, columns, b)
  {
    ConcatAppend(LineOutput(table, nameCol, quantityCol, columns), a, b);
  }

  /** Line `k`'s rows sit right after the rows of the lines before it. */
  lemma DistributionAt(table: Table, nameCol: string, quantityCol: Option<string>,
                       columns: seq<string>, lines: seq<seq<Cell>>, k: nat)
    requires k < |lines|
    ensures Distribution(table, nameCol, quantityCol, columns, lines)
      == Distribution(table, nameCol, quantityCol, columns, lines[..k])
        + RowOutput(table, nameCol, quantityCol, RowOf(columns, lines[k]))
        + Distribution(table, nameCol, quantityCol, columns, lines[k + 1..])
  {
    ConcatAt(LineOutput(table, nameCol, quantityCol, columns), lines, k);
  }

  lemma ConcatAt(f: seq<Cell> -> seq<Row>, lines: seq<seq<Cell>>, k: nat)
    requires k < |lines|
    ensures Concat(f, lines) == Concat(f, lines[..k]) + f(lines[k]) + Concat(f, lines[k + 1..])
  {
    var pre := lines[..k + 1];
    SplitAfter(lines, k);
    ConcatAppend(f, pre, lines[k + 1..]);
    ConcatLast(f, pre);
  }

  lemma SplitAfter(lines: seq<seq<Cell>>, k: nat)
    requires k < |lines|
    ensures lines[..k + 1] + lines[k + 1..] == lines
    ensures lines[..k + 1][..k] == lines[..k] && lines[..k + 1][k] == lines[k]
  {
  }

  /** The output for the first `i + 1` lines: that of the first `i`, then line `i`'s. */
  lemma ConcatStep(f: seq<Cell> -> seq<Row>, lines: seq<seq<Cell>>, i: nat)
    requires i < |lines|
    ensures Concat(f, lines[..i + 1]) == Concat(f, lines[..i]) + f(lines[i])
  {
    ConcatLast(f, lines[..i + 1]);
    assert lines[..i + 1][..i] == lines[..i];
  }

  lemma ConcatLast(f: seq<Cell> -> seq<Row>, lines: seq<seq<Cell>>)
    requires lines != []
    ensures Concat(f, lines) == Concat(f, lines[..|lines| - 1]) + f(lines[|lines| - 1])
  {
  }

  lemma {:induction false} ConcatAppend(f: seq<Cell> -> seq<Row>, a: seq<seq<Cell>>, b: seq<seq<Cell>>)
    ensures Concat(f, a + b) == Concat(f, a) + Concat(f, b)
    decreases |b|
  {
    if b == [] {
      assert a + b == a;
    } else {
      var front := b[..|b| - 1];
      assert (a + b)[..|a + b| - 1] == a + front;
      assert (a + b)[|a + b| - 1] == b[|b| - 1];
      ConcatAppend(f, a, front);
    }
  }

  /**
   * A numeric quantity is taken as it is, and so is the text `str(n)`; on the
   * model's exact reading of a plain decimal, `str(n) + "." + digits` reads as
   * `n`, truncated.
   */
  lemma QuantityReadsNumbers(n: int, fraction: string)
    requires AllDigits(fraction)
    ensures Quantity(Int(n)) == n
    ensures Quantity(Text(IntToString(n))) == n
    ensures Quantity(Text(IntToString(n) + "." + fraction)) == n
  {
    ParseIntRoundTrip(n);
    ParseDecimalExtendsParseInt(IntToString(n));
    ParseDecimalTruncates(n, fraction);
  }

  /** A missing quantity, and one that is not a number, count as 1. */
  lemma QuantityDefaults(s: string)
    requires Trimmed(s) && s != [] && !IsDigit(s[0]) && s[0] !in {'-', '+', '.'}
    ensures Quantity(Blank) == 1
    ensures Quantity(Text("")) == 1
    ensures Quantity(Text(s)) == 1
  {
    NotANumber(s);
  }
}

=== FILE: rows.dfy ===
/**
 * A spreadsheet row as a Python dict: its field names in insertion order and
 * a value for each name. Assigning to a name overwrites its value in place,
 * or adds the name at the end when it is new.
 */
module Rows {
  import opened Wrappers
  import opened Cells

  datatype Row = Row(names: seq<string>, values: map<string, Cell>)

  /** The names in order are exactly the names that have a value. */
  predicate Valid(row: Row)
  {
    (forall f | f in row.values :: f in row.names) && (forall f | f in row.names :: f in row.values)
  }

  /** `row[f]` if `f` is present. */
  function Get(row: Row, f: string): Option<Cell>
  {
    if f in row.values then Some(row.values[f]) else None
  }

  /** `row.get(f, default)`. */
  function GetOr(row: Row, f: string, default: Cell): Cell
  {
    if f in row.values then row.values[f] else default
  }

  /** `row[f] = v`. */
  function Set(row: Row, f: string, v: Cell): Row
  {
    Row(if f in row.names then row.names else row.names + [f], row.values[f := v])
  }

  /**
   * After `row[f] = v`, `f` reads as `v`, every other name reads as before,
   * and the names keep their order, with `f` added last when it was new.
   */
  lemma SetFields(row: Row, f: string, v: Cell)
    ensures Get(Set(row, f, v), f) == Some(v)
    ensures forall g | g != f :: Get(Set(row, f, v), g) == Get(row, g)
    ensures Set(row, f, v).names == if f in row.names then row.names else row.names + [f]
    ensures f in Set(row, f, v).names
  {
  }

  /**
   * The row pandas gives for one line of a sheet: the columns in order, each
   * with its cell, and a missing value where the line is shorter.
   */
  function RowOf(columns: seq<string>, cells: seq<Cell>): (r: Row)
    ensures Valid(r) && r.names == columns
  {
    if columns == [] then Row([], map[])
    else
      var j := |columns| - 1;
      var front := RowOf(columns[..j], cells);
      assert columns[..j] + [columns[j]] == columns;
      Row(columns, front.values[columns[j] := if j < |cells| then cells[j] else Blank])
  }
}

=== FILE: rules.dfy ===
/**
 * Building the rule table from the distribution-rules sheet
 * (`load_distribution_rules`). The sheet is read top to bottom; a non-blank
 * group-key cell sets the current group and opens an entry for it, and every
 * row with a non-blank component code appends a component to the current
 * group's list.
 */
module RuleBuilder {
  import opened Wrappers
  import opened Text
  import opened Numbers
  import opened Cells
  import opened Headers
  import opened RuleTables

  /** A sheet as pandas reads it: the header row and the data rows. */
  datatype Sheet = Sheet(headers: seq<string>, rows: seq<seq<Cell>>)

  /** Where the builder reads each of its four values (`None`: no such column). */
  datatype Columns = Columns(group: Option<nat>, component: Option<nat>, seller: Option<nat>, ea: Option<nat>)

  /** Column discovery; the group key falls back to the first column. */
  function ResolveColumns(headers: seq<string>): Columns
  {
    var group := match FirstHeader(headers, GroupKey)
      case Some(i) => Some(i)
      case None => if |headers| > 0 then Some(0) else None;
    Columns(group, FirstHeader(headers, ComponentCode), FirstHeader(headers, SellerCode), FirstHeader(headers, EaQuantity))
  }

  /** Without a marked group header, the group key is read from the first column, if there is one. */
  lemma GroupColumnFallback(headers: seq<string>)
    requires headers != [] && forall j | 0 <= j < |headers| :: !Marks(GroupKey, headers[j])
    ensures ResolveColumns(headers).group == Some(0)
  {
  }

  /**
   * The group column is the first marked header when there is one, the first
   * column otherwise, and there is none only for an empty header row. The
   * other three columns are the first headers carrying their marker words.
   */
  lemma ResolvedColumns(headers: seq<string>)
    ensures var cols := ResolveColumns(headers);
      && (cols.group.None? <==> headers == [])
      && (cols.group.Some? ==> cols.group.value < |headers|)
      && (forall j | 0 <= j < |headers| && Marks(GroupKey, headers[j]) ::
            cols.group.Some? && cols.group.value <= j && Marks(GroupKey, headers[cols.group.value]))
      && (cols.component.Some? ==> Marks(ComponentCode, headers[cols.component.value]))
      && (cols.seller.Some? ==> Marks(SellerCode, headers[cols.seller.value]))
      && (cols.ea.Some? ==> Marks(EaQuantity, headers[cols.ea.value]))
  {
    var cols := ResolveColumns(headers);
    forall j | 0 <= j < |headers| && Marks(GroupKey, headers[j])
      ensures cols.group.Some? && cols.group.value <= j && Marks(GroupKey, headers[cols.group.value])
    {
      var f := FirstHeader(headers, GroupKey);
      assert f.Some?;
      assert !(j < f.value);
    }
  }

  /**
   * The cell of a row in a column: `''` when there is no such column, a
   * missing value when the row is shorter than the header (pandas pads it).
   */
  function CellAt(cells: seq<Cell>, col: Option<nat>): Cell
  {
    match col
    case None => Text("")
    case Some(i) => if i < |cells| then cells[i] else Blank
  }

  /**
   * The EA quantity of a rule row: missing is 0; otherwise the unit `EA` is
   * removed and the rest read with `int`, then with `int(float(...))`,
   * and 0 when both fail. Negative values are kept.
   */
  function ParseEa(c: Cell): int
  {
    if c.Blank? then 0 else ReadEa(WithoutUnit(Render(c)))
  }

  /** `s.replace(' EA', '').replace('EA', '').strip()`. */
  function WithoutUnit(s: string): string
  {
    Strip(RemoveAll(RemoveAll(s, " EA"), "EA"))
  }

  /** `int(t)`, else `int(float(t))`, else 0. */
  function ReadEa(t: string): int
  {
    match ParseInt(t)
    case Some(v) => v
    case None =>
      match ParseDecimal(t)
      case Some(v) => v
      case None => 0
  }

  /** A key or code as stored: already stripped, and not blank-like. */
  predicate Meaningful(s: string)
  {
    Strip(s) == s && !BlankLikeText(s)
  }

  /** The stripped text of a cell that is not blank-like is meaningful. */
  lemma StrippedMeaningful(c: Cell)
    requires !BlankLike(c)
    ensures Meaningful(Strip(Render(c)))
  {
    StripIdempotent(Render(c));
    BlankLikeTextStable(Render(c));
  }

  /** The group key a row names, if its group cell is not blank-like. */
  function GroupKeyOf(cols: Columns, cells: seq<Cell>): Option<string>
  {
    var c := CellAt(cells, cols.group);
    if BlankLike(c) then None else Some(Strip(Render(c)))
  }

  /** The component a row describes, if its component-code cell is not blank-like. */
  function ComponentOf(cols: Columns, cells: seq<Cell>): Option<Component>
  {
    var code := CellAt(cells, cols.component);
    if BlankLike(code) then None
    else
      var seller := CellAt(cells, cols.seller);
      Some(Component(Strip(Render(code)),
                     if seller.Blank? then "" else Strip(Render(seller)),
                     ParseEa(CellAt(cells, cols.ea))))
  }

  /** Group keys and component codes are stored stripped and are never blank-like. */
  lemma RowValuesMeaningful(cols: Columns, cells: seq<Cell>)
    ensures GroupKeyOf(cols, cells).Some? ==> Meaningful(GroupKeyOf(cols, cells).value)
    ensures ComponentOf(cols, cells).Some? ==> Meaningful(ComponentOf(cols, cells).value.code)
  {
    var c := CellAt(cells, cols.group);
    if !BlankLike(c) { StrippedMeaningful(c); }
    var code := CellAt(cells, cols.component);
    if !BlankLike(code) { StrippedMeaningful(code); }
  }

  // ---------------------------------------------------------------------------
  // The builder as a left fold over the rows

  /** The loop state: the table so far and the current group key. */
  datatype Progress = Progress(table: Table, current: Option<string>)

  const Start := Progress([], None)

  /** One iteration of the row loop. */
  function Step(cols: Columns, p: Progress, cells: seq<Cell>): Progress
  {
    var key := GroupKeyOf(cols, cells);
    var current := if key.Some? then key else p.current;
    Progress(AddComponent(OpenGroup(p.table, key), current, ComponentOf(cols, cells)), current)
  }

  /** A newly seen group key gets an empty list. */
  function OpenGroup(t: Table, key: Option<string>): Table
  {
    if key.Some? && key.value !in Keys(t) then t + [Rule(key.value, [])] else t
  }

  /** A component is appended to the current group's list, if there is a current group. */
  function AddComponent(t: Table, current: Option<string>, comp: Option<Component>): Table
  {
    if current.Some? && comp.Some? then AppendTo(t, current.value, comp.value) else t
  }

  /** The state after running the loop over `rows` from state `p`. */
  function Fold(cols: Columns, p: Progress, rows: seq<seq<Cell>>): Progress
  {
    if rows == [] then p
    else Step(cols, Fold(cols, p, rows[..|rows| - 1]), rows[|rows| - 1])
  }

  /** The rule table built from a sheet. */
  function RulesOf(sheet: Sheet): Table
  {
    Fold(ResolveColumns(sheet.headers), Start, sheet.rows).table
  }

  /**
   * `load_distribution_rules`: a sheet that could not be read gives the empty
   * table; otherwise the rows are processed in order, carrying the current
   * group key from row to row.
   */
  method LoadRules(sheet: Option<Sheet>) returns (table: Table)
    ensures sheet.None? ==> table == []
    ensures sheet.Some? ==> table == RulesOf(sheet.value)
  {
    if sheet.None? {
      return [];
    }
    table := BuildTable(ResolveColumns(sheet.value.headers), sheet.value.rows);
  }

  /** The row loop of `load_distribution_rules`, with the columns already resolved. */
  method BuildTable(cols: Columns, rows: seq<seq<Cell>>) returns (table: Table)
    ensures table == Fold(cols, Start, rows).table
  {
    table := [];
    var current: Option<string> := None;
    var i := 0;
    while i < |rows|
      invariant 0 <= i <= |rows|
      invariant Progress(table, current) == Fold(cols, Start, rows[..i])
    {
      table, current := ReadRow(cols, table, current, rows[i]);
      assert rows[..i + 1][..i] == rows[..i];
      i := i + 1;
    }
    assert rows[..i] == rows;
  }

  /**
   * One pass of the row loop: a non-blank group key becomes the current key
   * and gets an entry if it has none; then, while there is a current key, a
   * non-blank component code appends a component to that key's list.
   */
  method ReadRow(cols: Columns, table: Table, current: Option<string>, cells: seq<Cell>)
    returns (table': Table, current': Option<string>)
    ensures Progress(table', current') == Step(cols, Progress(table, current), cells)
  {
    table', current' := table, current;
    var key := GroupKeyOf(cols, cells);
    if key.Some? {
      current' := key;
      if key.value !in Keys(table') {
        table' := table' + [Rule(key.value, [])];
      }
    }
    assert table' == OpenGroup(table, key);
    if current'.Some? {
      var comp := ComponentOf(cols, cells);
      if comp.Some? {
        table' := AppendTo(table', current'.value, comp.value);
      }
    }
  }

  // ---------------------------------------------------------------------------
  // An independent description of the table, key by key

  /** The non-blank group keys of the rows, in row order, repeats included. */
  function Mentions(cols: Columns, rows: seq<seq<Cell>>): seq<string>
  {
    if rows == [] then []
    else
      var front := Mentions(cols, rows[..|rows| - 1]);
      match GroupKeyOf(cols, rows[|rows| - 1])
      case Some(k) => front + [k]
      case None => front
  }

  /** The most recent non-blank group key at the end of `rows`. */
  function LastMention(cols: Columns, rows: seq<seq<Cell>>): Option<string>
  {
    if rows == [] then None
    else match GroupKeyOf(cols, rows[|rows| - 1])
      case Some(k) => Some(k)
      case None => LastMention(cols, rows[..|rows| - 1])
  }

  /**
   * The components belonging to `k`: those of the rows with a non-blank
   * component code whose most recent group key (up to and including that row)
   * is `k`, in row order.
   */
  function Collect(cols: Columns, rows: seq<seq<Cell>>, k: string): seq<Component>
  {
    if rows == [] then []
    else
      var front := Collect(cols, rows[..|rows| - 1], k);
      match ComponentOf(cols, rows[|rows| - 1])
      case Some(c) => if LastMention(cols, rows) == Some(k) then front + [c] else front
      case None => front
  }

  predicate Distinct(s: seq<string>)
  {
    forall i, j | 0 <= i < j < |s| :: s[i] != s[j]
  }

  /** The elements of `s` in order of first occurrence, each once. */
  function Dedup(s: seq<string>): (r: seq<string>)
    ensures Distinct(r)
    ensures forall x :: x in r <==> x in s
  {
    if s == [] then []
    else
      var front := Dedup(s[..|s| - 1]);
      assert s == s[..|s| - 1] + [s[|s| - 1]];
      if s[|s| - 1] in front then front else front + [s[|s| - 1]]
  }

  lemma {:induction false} LastMentionIsMentioned(cols: Columns, rows: seq<seq<Cell>>)
    ensures LastMention(cols, rows).Some? ==> LastMention(cols, rows).value in Mentions(cols, rows)
  {
    if rows != [] && GroupKeyOf(cols, rows[|rows| - 1]).None? {
      LastMentionIsMentioned(cols, rows[..|rows| - 1]);
    }
  }

  /** A key never named in the rows collects no components. */
  lemma {:induction false} CollectUnmentioned(cols: Columns, rows: seq<seq<Cell>>, k: string)
    requires k !in Mentions(cols, rows)
    ensures Collect(cols, rows, k) == []
  {
    if rows != [] {
      var front := rows[..|rows| - 1];
      assert k !in Mentions(cols, front);
      CollectUnmentioned(cols, front, k);
      LastMentionIsMentioned(cols, rows);
    }
  }

  /** What the table looks like after `rows`, stated key by key. */
  ghost predicate Characterised(cols: Columns, rows: seq<seq<Cell>>, p: Progress)
  {
    && DistinctKeys(p.table)
    && Keys(p.table) == Dedup(Mentions(cols, rows))
    && p.current == LastMention(cols, rows)
    && forall k :: Lookup(p.table, k) == if k in Mentions(cols, rows) then Some(Collect(cols, rows, k)) else None
  }

  /** The key-by-key description over one more row, in terms of the rows before it. */
  lemma UnfoldRow(cols: Columns, rows: seq<seq<Cell>>, cells: seq<Cell>, k: string)
    ensures Mentions(cols, rows + [cells]) ==
      match GroupKeyOf(cols, cells) case Some(x) => Mentions(cols, rows) + [x] case None => Mentions(cols, rows)
    ensures LastMention(cols, rows + [cells]) ==
      if GroupKeyOf(cols, cells).Some? then GroupKeyOf(cols, cells) else LastMention(cols, rows)
    ensures Collect(cols, rows + [cells], k) ==
      match ComponentOf(cols, cells)
      case Some(c) => if LastMention(cols, rows + [cells]) == Some(k) then Collect(cols, rows, k) + [c] else Collect(cols, rows, k)
      case None => Collect(cols, rows, k)
  {
    var rows' := rows + [cells];
    assert rows'[..|rows'| - 1] == rows && rows'[|rows'| - 1] == cells;
  }

  /** Opening an entry for a new key keeps the keys equal to the first mentions. */
  lemma OpenGroupKeys(t: Table, m: seq<string>, key: Option<string>)
    requires Keys(t) == Dedup(m)
    ensures Keys(OpenGroup(t, key)) == Dedup(match key case Some(x) => m + [x] case None => m)
  {
    if key.Some? {
      var m' := m + [key.value];
      assert m'[..|m'| - 1] == m;
      if key.value !in Keys(t) {
        assert Keys(OpenGroup(t, key)) == Keys(t) + [key.value];
      }
    }
  }

  /** Opening an entry adds the empty list under a new key and changes no other lookup. */
  lemma OpenGroupLookup(t: Table, key: Option<string>, k: string)
    ensures Lookup(OpenGroup(t, key), k) == if key == Some(k) && k !in Keys(t) then Some([]) else Lookup(t, k)
  {
    if key.Some? && key.value !in Keys(t) {
      var t1 := OpenGroup(t, key);
      assert t1[..|t1| - 1] == t;
    }
  }

  /** One loop iteration, seen through the lookup of one key. */
  lemma StepLookup(cols: Columns, rows: seq<seq<Cell>>, p: Progress, cells: seq<Cell>, k: string)
    requires Characterised(cols, rows, p)
    ensures Lookup(Step(cols, p, cells).table, k) ==
      if k in Mentions(cols, rows + [cells]) then Some(Collect(cols, rows + [cells], k)) else None
  {
    var rows' := rows + [cells];
    var m := Mentions(cols, rows);
    var key := GroupKeyOf(cols, cells);
    var t1 := OpenGroup(p.table, key);
    UnfoldRow(cols, rows, cells, k);
    OpenGroupKeys(p.table, m, key);
    OpenGroupLookup(p.table, key, k);
    assert k in Keys(p.table) <==> k in m;
    if k !in m {
      CollectUnmentioned(cols, rows, k);
    }
    assert Lookup(t1, k) == if k in Mentions(cols, rows') then Some(Collect(cols, rows, k)) else None;
    LastMentionIsMentioned(cols, rows');
  }

  /** A table whose key sequence has no repeats has distinct keys. */
  lemma DistinctKeysOf(t: Table)
    requires Distinct(Keys(t))
    ensures DistinctKeys(t)
  {
    forall i, j | 0 <= i < j < |t|
      ensures t[i].key != t[j].key
    {
      assert Keys(t)[i] == t[i].key && Keys(t)[j] == t[j].key;
    }
  }

  /** One loop iteration keeps the key-by-key description. */
  lemma StepCharacterised(cols: Columns, rows: seq<seq<Cell>>, p: Progress, cells: seq<Cell>)
    requires Characterised(cols, rows, p)
    ensures Characterised(cols, rows + [cells], Step(cols, p, cells))
  {
    var key := GroupKeyOf(cols, cells);
    UnfoldRow(cols, rows, cells, "");
    OpenGroupKeys(p.table, Mentions(cols, rows), key);
    var q := Step(cols, p, cells);
    assert Keys(q.table) == Keys(OpenGroup(p.table, key));
    forall k
      ensures Lookup(q.table, k) == if k in Mentions(cols, rows + [cells]) then Some(Collect(cols, rows + [cells], k)) else None
    {
      StepLookup(cols, rows, p, cells, k);
    }
    DistinctKeysOf(q.table);
  }

  /** The fold matches the key-by-key description. */
  lemma {:induction false} FoldCharacterised(cols: Columns, rows: seq<seq<Cell>>)
    ensures Characterised(cols, rows, Fold(cols, Start, rows))
  {
    if rows == [] {
      StartCharacterised(cols);
    } else {
      var front, last := rows[..|rows| - 1], rows[|rows| - 1];
      FoldCharacterised(cols, front);
      FoldLast(cols, rows);
      StepCharacterised(cols, front, Fold(cols, Start, front), last);
      CharacterisedLast(cols, rows, Step(cols, Fold(cols, Start, front), last));
    }
  }

  /** A non-empty list is its front followed by its last row. */
  lemma CharacterisedLast(cols: Columns, rows: seq<seq<Cell>>, p: Progress)
    requires rows != [] && Characterised(cols, rows[..|rows| - 1] + [rows[|rows| - 1]], p)
    ensures Characterised(cols, rows, p)
  {
    assert rows[..|rows| - 1] + [rows[|rows| - 1]] == rows;
  }

  /** The fold over a non-empty list is one step after the fold over all but its last row. */
  lemma FoldLast(cols: Columns, rows: seq<seq<Cell>>)
    requires rows != []
    ensures Fold(cols, Start, rows) == Step(cols, Fold(cols, Start, rows[..|rows| - 1]), rows[|rows| - 1])
  {
  }

  /** Before any row: no keys and no current group. */
  lemma StartCharacterised(cols: Columns)
    ensures Characterised(cols, [], Start)
  {
  }

  /** The keys of the folded table are the first mentions. */
  lemma FoldKeys(cols: Columns, rows: seq<seq<Cell>>)
    ensures Keys(Fold(cols, Start, rows).table) == Dedup(Mentions(cols, rows))
  {
    FoldCharacterised(cols, rows);
  }

  /**
   * The built table: its keys are the sheet's non-blank group keys, each once,
   * in order of first appearance (so a group without components still gets
   * an entry), and each key's list holds, in row order, the components of the
   * rows that fall under it by carry-forward.
   */
  lemma RulesOfCharacterised(sheet: Sheet)
    ensures var cols := ResolveColumns(sheet.headers);
      && DistinctKeys(RulesOf(sheet))
      && Keys(RulesOf(sheet)) == Dedup(Mentions(cols, sheet.rows))
      && forall k | k in Mentions(cols, sheet.rows) :: Lookup(RulesOf(sheet), k) == Some(Collect(cols, sheet.rows, k))
  {
    FoldCharacterised(ResolveColumns(sheet.headers), sheet.rows);
  }

  // ---------------------------------------------------------------------------
  // Consequences

  /** Running the loop over `a + b` is running it over `a`, then over `b`. */
  lemma {:induction false} FoldAppend(cols: Columns, p: Progress, a: seq<seq<Cell>>, b: seq<seq<Cell>>)
    ensures Fold(cols, p, a + b) == Fold(cols, Fold(cols, p, a), b)
    decreases |b|
  {
    if b == [] {
      assert a + b == a;
    } else {
      assert (a + b)[..|a + b| - 1] == a + b[..|b| - 1];
      FoldAppend(cols, p, a, b[..|b| - 1]);
    }
  }

  /** Rows before the first group key leave the loop state where it started. */
  lemma {:induction false} FoldWithoutKeys(cols: Columns, rows: seq<seq<Cell>>)
    requires Mentions(cols, rows) == []
    ensures Fold(cols, Start, rows) == Start
  {
    if rows != [] {
      var front := rows[..|rows| - 1];
      FoldWithoutKeys(cols, front);
    }
  }

  /** Component rows that come before any group key are dropped: the table is as if they were absent. */
  lemma LeadingRowsDropped(cols: Columns, lead: seq<seq<Cell>>, rest: seq<seq<Cell>>)
    requires Mentions(cols, lead) == []
    ensures Fold(cols, Start, lead + rest).table == Fold(cols, Start, rest).table
  {
    FoldAppend(cols, Start, lead, rest);
    FoldWithoutKeys(cols, lead);
  }

  /**
   * A group key that appears again does not reset its list: the keys stay as
   * they were and the row's component, if any, is appended after the ones
   * collected so far.
   */
  lemma RepeatedKeyAppends(cols: Columns, rows: seq<seq<Cell>>, cells: seq<Cell>, k: string)
    requires k in Mentions(cols, rows) && GroupKeyOf(cols, cells) == Some(k)
    ensures var before := Fold(cols, Start, rows).table;
      var after := Fold(cols, Start, rows + [cells]).table;
      && Keys(after) == Keys(before)
      && Lookup(after, k) == Some(Lookup(before, k).value + match ComponentOf(cols, cells) case Some(c) => [c] case None => [])
  {
    var rows' := rows + [cells];
    assert rows'[..|rows'| - 1] == rows && rows'[|rows'| - 1] == cells;
    var p := Fold(cols, Start, rows);
    FoldKeys(cols, rows);
    assert k in Keys(p.table);
    var q := Step(cols, p, cells);
    assert q == Fold(cols, Start, rows');
    match ComponentOf(cols, cells) {
      case None =>
        assert q.table == p.table;
        assert Lookup(p.table, k).value + [] == Lookup(p.table, k).value;
      case Some(c) =>
        assert q.table == AppendTo(p.table, k, c);
        assert Lookup(q.table, k) == Some(Lookup(p.table, k).value + [c]);
    }
  }

  /**
   * A row whose component-code cell is blank-like adds no component: at most
   * it opens an entry for its own group key.
   */
  lemma BlankCodeAddsNothing(cols: Columns, rows: seq<seq<Cell>>, cells: seq<Cell>)
    requires BlankLike(CellAt(cells, cols.component))
    ensures Fold(cols, Start, rows + [cells]).table == OpenGroup(Fold(cols, Start, rows).table, GroupKeyOf(cols, cells))
  {
    FoldLast(cols, rows + [cells]);
    assert (rows + [cells])[..|rows|] == rows;
  }

  /**
   * The carried-forward group key is never the empty string, so testing that
   * there is one is the same as testing its truthiness.
   */
  lemma CurrentKeyNonEmpty(cols: Columns, rows: seq<seq<Cell>>)
    ensures var current := Fold(cols, Start, rows).current;
      current.Some? ==> current.value != "" && Meaningful(current.value)
  {
    FoldCharacterised(cols, rows);
    LastMentionIsMentioned(cols, rows);
    MentionsMeaningful(cols, rows);
  }

  /** Every key and every component code in a built table is meaningful (non-empty and not blank-like). */
  predicate WellFormed(t: Table)
  {
    forall i | 0 <= i < |t| ::
      Meaningful(t[i].key) && forall c | c in t[i].components :: Meaningful(c.code)
  }

  lemma {:induction false} MentionsMeaningful(cols: Columns, rows: seq<seq<Cell>>)
    ensures forall k | k in Mentions(cols, rows) :: Meaningful(k)
  {
    if rows != [] {
      MentionsMeaningful(cols, rows[..|rows| - 1]);
      RowValuesMeaningful(cols, rows[|rows| - 1]);
    }
  }

  lemma {:induction false} CollectMeaningful(cols: Columns, rows: seq<seq<Cell>>, k: string)
    ensures forall c | c in Collect(cols, rows, k) :: Meaningful(c.code)
  {
    if rows != [] {
      CollectMeaningful(cols, rows[..|rows| - 1], k);
      RowValuesMeaningful(cols, rows[|rows| - 1]);
    }
  }

  /** A built table has distinct keys, and only meaningful keys and codes. */
  lemma RulesWellFormed(sheet: Sheet)
    ensures DistinctKeys(RulesOf(sheet)) && WellFormed(RulesOf(sheet))
  {
    var cols := ResolveColumns(sheet.headers);
    var t := RulesOf(sheet);
    RulesOfCharacterised(sheet);
    MentionsMeaningful(cols, sheet.rows);
    forall i | 0 <= i < |t|
      ensures Meaningful(t[i].key) && forall c | c in t[i].components :: Meaningful(c.code)
    {
      var k := t[i].key;
      assert k in Keys(t);
      LookupEntry(t, i);
      CollectMeaningful(cols, sheet.rows, k);
    }
  }

  // ---------------------------------------------------------------------------
  // EA quantities

  /** Without a space or an `E`, and with nothing to strip, a string loses nothing but a trailing unit. */
  lemma WithoutUnitPlain(s: string)
    requires ' ' !in s && 'E' !in s && Trimmed(s)
    ensures WithoutUnit(s) == s
    ensures WithoutUnit(s + " EA") == s
    ensures WithoutUnit(s + "EA") == s
  {
    NoUnitPlain(s);
    UnitPlain(s, " EA");
    UnitPlain(s, "EA");
  }

  /** A plain trimmed text without a unit is left as it is. */
  lemma NoUnitPlain(s: string)
    requires ' ' !in s && 'E' !in s && Trimmed(s)
    ensures WithoutUnit(s) == s
  {
    StripTrimmed(s);
    RemoveAllAbsent(s, " EA");
    RemoveAllAbsent(s, "EA");
  }

  /** A plain trimmed text followed by ` EA` or `EA` loses exactly that unit. */
  lemma UnitPlain(s: string, unit: string)
    requires ' ' !in s && 'E' !in s && Trimmed(s)
    requires unit == " EA" || unit == "EA"
    ensures WithoutUnit(s + unit) == s
  {
    StripTrimmed(s);
    if unit == " EA" {
      RemoveUnit(s, " EA", " EA");
      RemoveAllAbsent(s, "EA");
    } else {
      RemoveAllAbsent(s + "EA", " EA");
      RemoveUnit(s, "EA", "EA");
    }
  }

  /** Removing `pat` from `s + unit`, where `unit` ends in `pat` and `s` cannot start it, leaves `s`. */
  lemma RemoveUnit(s: string, unit: string, pat: string)
    requires unit == " EA" || unit == "EA"
    requires (pat == " EA" || pat == "EA") && ' ' !in s && 'E' !in s
    requires unit == pat
    ensures RemoveAll(s + unit, pat) == s
  {
    RemoveAllKeepsPrefix(s, unit, pat);
    assert unit[..|pat|] == pat;
    assert RemoveAll(unit, pat) == RemoveAll(unit[|pat|..], pat);
    assert unit[|pat|..] == [];
    assert s + [] == s;
  }

  /** `"<n> EA"`, `"<n>EA"` and a numeric cell all read as `n`, negative values included. */
  lemma ParseEaCount(n: int)
    ensures ParseEa(Text(IntToString(n) + " EA")) == n
    ensures ParseEa(Text(IntToString(n) + "EA")) == n
    ensures ParseEa(Int(n)) == n
  {
    var s := IntToString(n);
    IntToStringTrimmed(n);
    assert ' ' !in s && 'E' !in s;
    WithoutUnitPlain(s);
    ParseIntRoundTrip(n);
  }

  /**
   * On the model's exact reading of a plain decimal, an EA value such as
   * `"2.0"` or `"-2.5"` reads as its whole part, truncated toward zero.
   */
  lemma ParseEaDecimal(n: int, fraction: string)
    requires AllDigits(fraction)
    ensures ParseEa(Text(IntToString(n) + "." + fraction)) == n
  {
    var s := IntToString(n) + "." + fraction;
    IntToStringTrimmed(n);
    assert ' ' !in s && 'E' !in s by {
      forall i | 0 <= i < |s| ensures s[i] != ' ' && s[i] != 'E' {
        if i >= |IntToString(n)| + 1 { assert IsDigit(fraction[i - |IntToString(n)| - 1]); }
      }
    }
    assert Trimmed(s) by {
      assert s[0] == IntToString(n)[0];
      if fraction == [] { assert s[|s| - 1] == '.'; } else { assert s[|s| - 1] == fraction[|fraction| - 1]; }
    }
    WithoutUnitPlain(s);
    ParseDecimalTruncates(n, fraction);
    if ParseInt(s).Some? {
      ParseDecimalExtendsParseInt(s);
    }
  }

  /** A missing EA cell, and one that does not read as a number, give 0. */
  lemma ParseEaDefault()
    ensures ParseEa(Blank) == 0
    ensures ParseEa(Text("")) == 0
    ensures ParseEa(Text("box")) == 0
  {
    ReadEaEmpty();
    ReadEaWord();
  }

  /**
   * The `int(t)` attempt never changes the outcome: the EA value is what
   * `int(float(t))` gives, and 0 where that fails too.
   */
  lemma ReadEaIsDecimal(t: string)
    ensures ReadEa(t) == match ParseDecimal(t) case Some(v) => v case None => 0
  {
    if ParseInt(t).Some? {
      ParseDecimalExtendsParseInt(t);
    }
  }

  /** Any EA text that, once its unit is removed, does not start like a number reads as 0. */
  lemma ParseEaNotANumber(s: string)
    requires var t := WithoutUnit(s); t != [] && !IsDigit(t[0]) && t[0] !in {'-', '+', '.'}
    ensures ParseEa(Text(s)) == 0
  {
    NotANumber(WithoutUnit(s));
  }

  lemma ReadEaEmpty()
    ensures ReadEa(WithoutUnit("")) == 0
  {
    WithoutUnitPlain("");
    assert ParseInt("") == None;
    assert ParseDecimal("") == None;
  }

  lemma ReadEaWord()
    ensures ReadEa(WithoutUnit("box")) == 0
  {
    var box := "box";
    assert !IsSpace(box[0]) && !IsSpace(box[2]);
    WithoutUnitPlain(box);
    NotANumber(box);
  }
}

=== FILE: scenarios.dfy ===
/**
 * Two order lines run end to end against a one-rule table: a Profutura
 * pre-stage order is split into its two components, and an order no rule
 * covers is kept as a single unshaded row.
 */
module Scenarios {
  import opened Wrappers
  import opened Text
  import opened Numbers
  import opened Cells
  import opened Rows
  import opened Headers
  import opened RuleTables
  import opened Matcher
  import opened Expander
  import opened Orders
  import opened Shading

  const OrderColumns: seq<string> := ["상품명", "구매 수량"]

  /** One rule: the pre-stage set, made of two components. */
  const PreTable: Table := [Rule("3PF PRE+IF", [Component("C1", "S1", 1), Component("C2", "S2", 2)])]

  /** The header row of the result sheet: the order's columns, then the five written fields. */
  const ResultHeaders: seq<string> := OrderColumns + [CodeField, SellerField, EaField, NameField, QuantityField]

  /**
   * The pre-stage order's name, already upper-case, so this scenario does not
   * exercise upper-casing; a mixed-case name such as "Profutura Pre Stage" is
   * covered in general by `Matcher.ProfuturaPrePriority`, whose test reads the
   * upper-cased name.
   */
  const PreName := Text("PROFUTURA PRE")
  const UnknownName := Text("Unknown Widget")

  /** The name column is the first, the quantity column the second, and shading reads the code column. */
  lemma ColumnsFound()
    ensures FirstHeader(OrderColumns, ProductName) == Some(0)
    ensures QuantityHeader(OrderColumns) == Some("구매 수량")
    ensures ShadesByCode(ResultHeaders)
  {
    assert OccursAt(OrderColumns[0], "상품명", 0);
    assert OccursAt(OrderColumns[1], "구매 수량", 0);
    assert OccursAt(ResultHeaders[2], "구성 상품코드", 0);
  }

  /** What the distributor reads from a two-cell order line: the name and a numeric quantity. */
  lemma LineReads(name: Cell, q: int)
    ensures NameOf(RowOf(OrderColumns, [name, Int(q)]), "상품명") == name
    ensures QuantityOf(RowOf(OrderColumns, [name, Int(q)]), Some("구매 수량")) == q
  {
    LineRow(name, Int(q));
  }

  /** The row pandas gives for an order line: its product name and its quantity under their columns. */
  lemma LineRow(name: Cell, q: Cell)
    ensures var row := RowOf(OrderColumns, [name, q]);
      && row.names == OrderColumns && GetOr(row, "상품명", Text("")) == name && GetOr(row, "구매 수량", Int(1)) == q
      && NameColumn(row) == Some(0) && QuantityColumn(row) == Some(1)
  {
    var row := RowOf(OrderColumns, [name, q]);
    var front := RowOf(OrderColumns[..1], [name, q]);
    assert OrderColumns[..1][..0] == [];
    assert front.values == map["상품명" := name];
    assert row.values == front.values["구매 수량" := q];
    ColumnsFound();
    assert !Marks(PurchaseQuantity, OrderColumns[0]);
  }

  /** The pre-stage name is upper-case already. */
  lemma PreNameUpper()
    ensures UpperName(PreName) == "PROFUTURA PRE"
  {
    PreNameNoLower();
    UpperIdle("PROFUTURA PRE");
  }

  lemma PreNameNoLower()
    ensures NoLower("PROFUTURA PRE")
  {
  }

  lemma NamesFamily()
    ensures Contains("PROFUTURA PRE", "PROFUTURA")
  {
    assert OccursAt("PROFUTURA PRE", "PROFUTURA", 0);
  }

  lemma NamesStage()
    ensures Contains("PROFUTURA PRE", "PRE")
  {
    assert OccursAt("PROFUTURA PRE", "PRE", 10);
  }

  /** The pre-stage name names the family and the stage. */
  lemma PreNameWords()
    ensures Contains(UpperName(PreName), "PROFUTURA") && Contains(UpperName(PreName), "PRE")
  {
    PreNameUpper();
    NamesFamily();
    NamesStage();
  }

  lemma KeyUpper()
    ensures ToUpper("3PF PRE+IF") == "3PF PRE+IF"
  {
    KeyNoLower();
    UpperIdle("3PF PRE+IF");
  }

  lemma KeyNoLower()
    ensures NoLower("3PF PRE+IF")
  {
  }

  lemma KeyNamesStage()
    ensures Contains("3PF PRE+IF", "PRE")
  {
    assert OccursAt("3PF PRE+IF", "PRE", 4);
  }

  /** The rule's key names the stage. */
  lemma PreKeyWord()
    ensures Contains(ToUpper(PreTable[0].key), "PRE")
  {
    KeyUpper();
    KeyNamesStage();
  }

  /** The pre-stage name matches the table's only rule, through the first tier. */
  lemma PreNameMatches()
    ensures Match(PreName, PreTable) == Some(PreTable[0])
  {
    PreNameWords();
    PreKeyWord();
    ProfuturaPrePriority(PreName, PreTable, 0);
  }

  lemma UnknownHasNoP()
    ensures 'P' !in UpperName(UnknownName)
  {
    UpperMissing("Unknown Widget", 'P');
  }

  /** The unknown name has no `P`, so no tier's name test holds and nothing matches. */
  lemma UnknownNameMatchesNothing()
    ensures Match(UnknownName, PreTable) == None
  {
    var n := UpperName(UnknownName);
    UnknownHasNoP();
    MissingFirstChar(n, "PROFUTURA");
    MissingFirstChar(n, "PRONUTRA");
  }

  /** A string whose length is not 0, 3 or 4 is none of `''`, `'nan'`, `'none'`. */
  lemma NotBlankWord(t: string)
    requires |t| != 0 && |t| != 3 && |t| != 4
    ensures t != "" && t != "nan" && t != "none"
  {
  }

  /** A trimmed string whose length is not 0, 3 or 4 is never blank-like. */
  lemma ShortCodeShows(s: string)
    requires Trimmed(s) && |s| != 0 && |s| != 3 && |s| != 4
    ensures !BlankLikeText(s)
  {
    StripTrimmed(s);
    NotBlankWord(ToLower(Strip(s)));
  }

  lemma CodeC1Shows()
    ensures !BlankLikeText("C1")
  {
    ShortCodeShows("C1");
  }

  lemma CodeC2Shows()
    ensures !BlankLikeText("C2")
  {
    ShortCodeShows("C2");
  }

  /** A row whose name matched a usable rule gives the expansion of that rule's components. */
  lemma MatchedOutput(table: Table, nameCol: string, quantityCol: Option<string>, row: Row, r: Rule, q: int)
    requires Match(NameOf(row, nameCol), table) == Some(r) && r.key != "" && r.components != []
    requires QuantityOf(row, quantityCol) == q
    ensures RowOutput(table, nameCol, quantityCol, row) == Expansion(row, r.components, q)
  {
  }

  /** A row whose name matched nothing gives its passthrough row. */
  lemma UnmatchedOutput(table: Table, nameCol: string, quantityCol: Option<string>, row: Row, q: int)
    requires Match(NameOf(row, nameCol), table) == None
    requires QuantityOf(row, quantityCol) == q
    ensures RowOutput(table, nameCol, quantityCol, row) == [Passthrough(row, NameOf(row, nameCol), q)]
  {
  }

  /** The pre-stage order runs to the expansion of its line by the rule's components, with multiplier 2. */
  lemma PreStageRun()
    ensures Run(Some(OrderSheet(OrderColumns, [[PreName, Int(2)]])), PreTable)
      == Distributed(Expansion(RowOf(OrderColumns, [PreName, Int(2)]), PreTable[0].components, 2))
  {
    var row := RowOf(OrderColumns, [PreName, Int(2)]);
    ColumnsFound();
    RunSingleLine(OrderColumns, [PreName, Int(2)], PreTable, 0);
    LineReads(PreName, 2);
    PreNameMatches();
    MatchedOutput(PreTable, "상품명", Some("구매 수량"), row, PreTable[0], 2);
  }

  /**
   * Every output row of the pre-stage order carries its component's codes,
   * twice its component's EA, the original name and quantity, and is shaded
   * when its code shows.
   */
  lemma PreStageRow(c: Component)
    ensures var r := ExpandedRow(RowOf(OrderColumns, [PreName, Int(2)]), c, 2);
      && Get(r, CodeField) == Some(Text(c.code)) && Get(r, SellerField) == Some(Text(c.seller))
      && Get(r, EaField) == Some(Int(c.ea * 2))
      && Get(r, NameField) == Some(PreName) && Get(r, QuantityField) == Some(Int(2))
      && (Shaded(ResultHeaders, r) <==> !BlankLikeText(c.code))
  {
    var row := RowOf(OrderColumns, [PreName, Int(2)]);
    LineRow(PreName, Int(2));
    ColumnsFound();
    ExpandedRowFields(row, c, 2);
    ExpandedShaded(ResultHeaders, row, c, 2);
  }

  /**
   * A pre-stage Profutura order for two sets becomes two rows, one per
   * component in rule order, with EA quantities 1 × 2 and 2 × 2, the
   * original name and quantity copied, and both rows shaded.
   */
  lemma PreStageOrderSplits()
    ensures var out := Run(Some(OrderSheet(OrderColumns, [[PreName, Int(2)]])), PreTable);
      && out.Distributed? && |out.rows| == 2
      && Get(out.rows[0], CodeField) == Some(Text("C1")) && Get(out.rows[0], SellerField) == Some(Text("S1"))
      && Get(out.rows[1], CodeField) == Some(Text("C2")) && Get(out.rows[1], SellerField) == Some(Text("S2"))
      && Get(out.rows[0], EaField) == Some(Int(2)) && Get(out.rows[1], EaField) == Some(Int(4))
      && Get(out.rows[0], NameField) == Some(PreName) && Get(out.rows[1], NameField) == Some(PreName)
      && Get(out.rows[0], QuantityField) == Some(Int(2)) && Get(out.rows[1], QuantityField) == Some(Int(2))
      && Shaded(ResultHeaders, out.rows[0]) && Shaded(ResultHeaders, out.rows[1])
  {
    var row := RowOf(OrderColumns, [PreName, Int(2)]);
    var comps := PreTable[0].components;
    PreStageRun();
    var e := Expansion(row, comps, 2);
    assert |e| == 2 && e[0] == ExpandedRow(row, comps[0], 2) && e[1] == ExpandedRow(row, comps[1], 2);
    CodeC1Shows();
    CodeC2Shows();
    PreStageRow(comps[0]);
    PreStageRow(comps[1]);
  }

  /** The unknown order runs to a single passthrough row with quantity 3. */
  lemma UnknownRun()
    ensures Run(Some(OrderSheet(OrderColumns, [[UnknownName, Int(3)]])), PreTable)
      == Distributed([Passthrough(RowOf(OrderColumns, [UnknownName, Int(3)]), UnknownName, 3)])
  {
    var row := RowOf(OrderColumns, [UnknownName, Int(3)]);
    ColumnsFound();
    RunSingleLine(OrderColumns, [UnknownName, Int(3)], PreTable, 0);
    LineReads(UnknownName, 3);
    UnknownNameMatchesNothing();
    UnmatchedOutput(PreTable, "상품명", Some("구매 수량"), row, 3);
  }

  /**
   * An order that names no product family is kept as one row: empty
   * component codes, its quantity as the EA quantity, and no shading.
   */
  lemma UnknownOrderPassesThrough()
    ensures var out := Run(Some(OrderSheet(OrderColumns, [[UnknownName, Int(3)]])), PreTable);
      && out.Distributed? && |out.rows| == 1
      && Get(out.rows[0], CodeField) == Some(Text("")) && Get(out.rows[0], SellerField) == Some(Text(""))
      && Get(out.rows[0], EaField) == Some(Int(3))
      && Get(out.rows[0], NameField) == Some(UnknownName)
      && Get(out.rows[0], QuantityField) == Some(Int(3))
      && !Shaded(ResultHeaders, out.rows[0])
  {
    var row := RowOf(OrderColumns, [UnknownName, Int(3)]);
    UnknownRun();
    ColumnsFound();
    PassthroughFields(row, UnknownName, 3);
    PassthroughUnshaded(ResultHeaders, row, UnknownName, 3);
  }
}

=== FILE: shading.dfy ===
/**
 * Shading of the result sheet (`apply_cell_colors`): a data row is shaded
 * when the cell under the first header containing the component-code field
 * name holds a code, that is, when it is truthy and its stripped, lower-cased
 * text is not `''`, `'nan'` or `'none'`.
 */
module Shading {
  import opened Wrappers
  import opened Cells
  import opened Rows
  import opened Headers
  import opened RuleTables
  import opened RuleBuilder
  import opened Matcher
  import opened Expander
  import opened Orders

  /**
   * The value of a result cell counts as a code. A missing cell and the
   * integer 0 are falsy and read as `''`; anything else is read through
   * `str(...).strip()`.
   */
  predicate CodeShown(v: Cell)
  {
    !v.Blank? && v != Int(0) && !BlankLikeText(Render(v))
  }

  /**
   * A data row is shaded: the header row has a column whose name contains the
   * component-code field name, and the row's cell in the first such column
   * shows a code. A row lacking that column has a missing cell there.
   */
  predicate Shaded(headers: seq<string>, row: Row)
  {
    match FirstHeader(headers, ShadeKey)
    case None => false
    case Some(j) => CodeShown(GetOr(row, headers[j], Blank))
  }

  /** The header search lands on the column the distributor writes the component code into. */
  predicate ShadesByCode(headers: seq<string>)
  {
    var j := FirstHeader(headers, ShadeKey);
    j.Some? && headers[j.value] == CodeField
  }

  /** A result sheet with no component-code header has no shaded data row. */
  lemma NoCodeHeaderNoShade(headers: seq<string>, row: Row)
    requires forall j | 0 <= j < |headers| :: !Marks(ShadeKey, headers[j])
    ensures !Shaded(headers, row)
  {
  }

  /** When the search lands on the component-code column, shading reads that field of the row. */
  lemma ShadedByCode(headers: seq<string>, row: Row)
    requires ShadesByCode(headers)
    ensures Shaded(headers, row) <==> CodeShown(GetOr(row, CodeField, Blank))
  {
  }

  /** A passthrough row has an empty component code and is never shaded. */
  lemma PassthroughUnshaded(headers: seq<string>, row: Row, name: Cell, q: int)
    requires ShadesByCode(headers)
    ensures !Shaded(headers, Passthrough(row, name, q))
  {
    PassthroughFields(row, name, q);
    ShadedByCode(headers, Passthrough(row, name, q));
  }

  /** An expanded row is shaded exactly when its component code is not blank-like. */
  lemma ExpandedShaded(headers: seq<string>, order: Row, c: Component, m: int)
    requires ShadesByCode(headers)
    ensures Shaded(headers, ExpandedRow(order, c, m)) <==> !BlankLikeText(c.code)
  {
    var r := ExpandedRow(order, c, m);
    ExpandedRowFields(order, c, m);
    assert GetOr(r, CodeField, Blank) == Text(c.code);
    ShadedByCode(headers, r);
  }

  /**
   * The rows of one order line, given its match, are shaded exactly when the
   * match was usable, provided the matched rule has no blank-like code.
   */
  lemma OutputShaded(headers: seq<string>, m: Option<Rule>, row: Row, name: Cell, q: int)
    requires ShadesByCode(headers)
    requires m.Some? ==> forall c | c in m.value.components :: !BlankLikeText(c.code)
    ensures var out := Output(m, row, name, q);
      forall k | 0 <= k < |out| :: Shaded(headers, out[k]) <==> Usable(m)
  {
    var out := Output(m, row, name, q);
    if Usable(m) {
      forall k | 0 <= k < |out|
        ensures Shaded(headers, out[k])
      {
        assert out[k] == ExpandedRow(row, m.value.components[k], q);
        ExpandedShaded(headers, row, m.value.components[k], q);
      }
    } else {
      PassthroughUnshaded(headers, row, name, q);
    }
  }

  /**
   * With a rule table the builder can produce, the rows of one order line are
   * shaded exactly when the line was expanded: component codes are never
   * blank-like, and passthrough codes always are.
   */
  lemma RowOutputShaded(headers: seq<string>, table: Table, nameCol: string, quantityCol: Option<string>, row: Row)
    requires ShadesByCode(headers) && WellFormed(table)
    ensures var out := RowOutput(table, nameCol, quantityCol, row);
      forall k | 0 <= k < |out| :: Shaded(headers, out[k]) <==> Expands(table, nameCol, row)
  {
    var m := Match(NameOf(row, nameCol), table);
    if m.Some? {
      var i :| 0 <= i < |table| && table[i] == m.value;
      assert forall c | c in table[i].components :: Meaningful(c.code);
    }
    OutputShaded(headers, m, row, NameOf(row, nameCol), QuantityOf(row, quantityCol));
  }

  /** Shading of a whole result: every row from a line that was expanded is shaded, every other row is not. */
  lemma DistributionShaded(headers: seq<string>, sheet: Sheet, nameCol: string,
                             quantityCol: Option<string>, columns: seq<string>,
                             lines: seq<seq<Cell>>, k: nat)
    requires ShadesByCode(headers) && k < |lines|
    ensures var table := RulesOf(sheet);
      var row := RowOf(columns, lines[k]);
      var before := |Distribution(table, nameCol, quantityCol, columns, lines[..k])|;
      var out := Distribution(table, nameCol, quantityCol, columns, lines);
      forall x | before <= x < before + |RowOutput(table, nameCol, quantityCol, row)| ::
        x < |out| && (Shaded(headers, out[x]) <==> Expands(table, nameCol, row))
  {
    var table := RulesOf(sheet);
    RulesWellFormed(sheet);
    var row := RowOf(columns, lines[k]);
    var mine := RowOutput(table, nameCol, quantityCol, row);
    RowOutputShaded(headers, table, nameCol, quantityCol, row);
    DistributionAt(table, nameCol, quantityCol, columns, lines, k);
    var before := Distribution(table, nameCol, quantityCol, columns, lines[..k]);
    var out := Distribution(table, nameCol, quantityCol, columns, lines);
    forall x | |before| <= x < |before| + |mine|
      ensures x < |out| && (Shaded(headers, out[x]) <==> Expands(table, nameCol, row))
    {
      assert out[x] == mine[x - |before|];
    }
  }
}

=== FILE: table.dfy ===
/**
 * The distribution-rule table: a Python dict from a product-group key to the
 * list of components that group expands into. Python dicts keep insertion
 * order, so the table is a sequence of entries with distinct keys.
 */
module RuleTables {
  import opened Wrappers

  /** One sub-item of a product group: `{component_code, seller_code, ea_quantity}`. */
  datatype Component = Component(code: string, seller: string, ea: int)

  /** One dict entry: a group key and its component list. */
  datatype Rule = Rule(key: string, components: seq<Component>)

  type Table = seq<Rule>

  /** The keys in insertion order (`rules.keys()`). */
  function Keys(t: Table): (r: seq<string>)
    ensures |r| == |t| && forall i | 0 <= i < |t| :: r[i] == t[i].key
  {
    seq(|t|, i requires 0 <= i < |t| => t[i].key)
  }

  /** No key occurs twice, as in a dict. */
  predicate DistinctKeys(t: Table)
  {
    forall i, j | 0 <= i < j < |t| :: t[i].key != t[j].key
  }

  /** `rules[k]` when `k in rules`. */
  function Lookup(t: Table, k: string): (r: Option<seq<Component>>)
    ensures r.None? <==> k !in Keys(t)
  {
    if t == [] then None
    else if t[|t| - 1].key == k then Some(t[|t| - 1].components)
    else
      assert Keys(t) == Keys(t[..|t| - 1]) + [t[|t| - 1].key];
      Lookup(t[..|t| - 1], k)
  }

  /** In a table with distinct keys, looking up the key of entry `i` gives entry `i`'s components. */
  lemma {:induction false} LookupEntry(t: Table, i: nat)
    requires DistinctKeys(t) && i < |t|
    ensures Lookup(t, t[i].key) == Some(t[i].components)
    decreases |t|
  {
    if i < |t| - 1 {
      LookupEntry(t[..|t| - 1], i);
    }
  }

  /**
   * `rules[k].append(c)`: the keys and their order stay as they were, `k`'s
   * list gains `c` at its end, and every other list is unchanged.
   */
  function AppendTo(t: Table, k: string, c: Component): (r: Table)
    ensures Keys(r) == Keys(t)
    ensures Lookup(r, k) == if k in Keys(t) then Some(Lookup(t, k).value + [c]) else None
    ensures forall j | j != k :: Lookup(r, j) == Lookup(t, j)
  {
    if t == [] then []
    else
      var last := t[|t| - 1];
      var front := AppendTo(t[..|t| - 1], k, c);
      var r := front + [if last.key == k then Rule(k, last.components + [c]) else last];
      assert r[..|r| - 1] == front;
      assert Keys(t) == Keys(t[..|t| - 1]) + [last.key];
      assert Keys(r) == Keys(front) + [last.key];
      r
  }
}

=== FILE: text.dfy ===
/**
 * The Python `str` operations the distributor relies on: substring containment
 * (`sub in s`), `strip()`, `replace(pat, '')`, and `upper()` / `lower()`
 * restricted to ASCII letters.
 */
module Text {

  /** `sub` occurs in `s` starting at index `i`. */
  predicate OccursAt(s: string, sub: string, i: nat)
  {
    i + |sub| <= |s| && s[i..i + |sub|] == sub
  }

  /** Python's `sub in s`. */
  predicate Contains(s: string, sub: string)
  {
    exists i: nat | i <= |s| :: OccursAt(s, sub, i)
  }

  /** Containment is transitive: a string holding `t` holds everything `t` holds. */
  lemma ContainsTransitive(s: string, t: string, u: string)
    requires Contains(s, t) && Contains(t, u)
    ensures Contains(s, u)
  {
    var i: nat :| i <= |s| && OccursAt(s, t, i);
    var j: nat :| j <= |t| && OccursAt(t, u, j);
    forall k | 0 <= k < |u|
      ensures s[i + j + k] == u[k]
    {
      assert s[i..i + |t|][j + k] == t[j + k];
      assert t[j..j + |u|][k] == t[j + k];
    }
    assert s[i + j..i + j + |u|] == u;
    assert OccursAt(s, u, i + j);
  }

  /** A string that lacks the first character of a non-empty `sub` cannot contain `sub`. */
  lemma MissingFirstChar(s: string, sub: string)
    requires sub != [] && sub[0] !in s
    ensures !Contains(s, sub)
  {
  }

  // ---------------------------------------------------------------------------
  // Case mapping (ASCII letters only; every other character is left as it is)

  function UpperChar(c: char): char
  {
    if 'a' <= c <= 'z' then (c as int - 'a' as int + 'A' as int) as char else c
  }

  function LowerChar(c: char): char
  {
    if 'A' <= c <= 'Z' then (c as int - 'A' as int + 'a' as int) as char else c
  }

  /** `s.upper()`. */
  function ToUpper(s: string): (r: string)
    ensures |r| == |s|
  {
    if s == [] then [] else [UpperChar(s[0])] + ToUpper(s[1..])
  }

  /** Upper-casing works character by character. */
  lemma {:induction false} ToUpperAt(s: string)
    ensures forall i | 0 <= i < |s| :: ToUpper(s)[i] == UpperChar(s[i])
  {
    if s != [] {
      ToUpperAt(s[1..]);
      assert forall i | 1 <= i < |s| :: ToUpper(s)[i] == ToUpper(s[1..])[i - 1];
    }
  }

  /** `s` has no lower-case ASCII letter. */
  predicate NoLower(s: string)
  {
    forall i | 0 <= i < |s| :: !('a' <= s[i] <= 'z')
  }

  /** A string without lower-case letters is its own upper-casing. */
  lemma UpperIdle(s: string)
    requires NoLower(s)
    ensures ToUpper(s) == s
  {
    ToUpperAt(s);
  }

  /** A letter whose two cases are both absent from `s` is absent from its upper-casing. */
  lemma UpperMissing(s: string, c: char)
    requires 'A' <= c <= 'Z' && c !in s && LowerChar(c) !in s
    ensures c !in ToUpper(s)
  {
    ToUpperAt(s);
  }

  /** `s.lower()`. */
  function ToLower(s: string): (r: string)
    ensures |r| == |s|
  {
    if s == [] then [] else [LowerChar(s[0])] + ToLower(s[1..])
  }

  // ---------------------------------------------------------------------------
  // strip()

  /** The characters Python's `str.isspace()` accepts, which `strip()` removes. */
  predicate IsSpace(c: char)
  {
    c in {' ', '\t', '\n', '\r', '\U{000B}', '\U{000C}', '\U{001C}', '\U{001D}', '\U{001E}', '\U{001F}',
          '\U{0085}', '\U{00A0}', '\U{1680}', '\U{2028}', '\U{2029}', '\U{202F}', '\U{205F}', '\U{3000}'}
    || '\U{2000}' <= c <= '\U{200A}'
  }

  /** No whitespace at either end. */
  predicate Trimmed(s: string)
  {
    s == [] || (!IsSpace(s[0]) && !IsSpace(s[|s| - 1]))
  }

  /** Every character of `t` is whitespace. */
  predicate AllSpace(t: string)
  {
    t == [] || (IsSpace(t[0]) && AllSpace(t[1..]))
  }

  /** A whitespace character after whitespace is still whitespace only. */
  lemma {:induction false} AllSpaceAppend(t: string, c: char)
    requires AllSpace(t) && IsSpace(c)
    ensures AllSpace(t + [c])
  {
    if t != [] {
      AllSpaceAppend(t[1..], c);
      assert (t + [c])[1..] == t[1..] + [c];
    }
  }

  /** `s.lstrip()`: the longest suffix of `s` that does not start with whitespace. */
  function StripLeft(s: string): (r: string)
    ensures |r| <= |s| && r == s[|s| - |r|..]
    ensures r != [] ==> !IsSpace(r[0])
    ensures AllSpace(s[..|s| - |r|])
  {
    if s != [] && IsSpace(s[0]) then
      var r := StripLeft(s[1..]);
      assert s[..|s| - |r|][1..] == s[1..][..|s| - 1 - |r|];
      r
    else s
  }

  /** `s.rstrip()`: the longest prefix of `s` that does not end with whitespace. */
  function StripRight(s: string): (r: string)
    ensures |r| <= |s| && r == s[..|r|]
    ensures r != [] ==> !IsSpace(r[|r| - 1])
    ensures AllSpace(s[|r|..])
  {
    if s != [] && IsSpace(s[|s| - 1]) then
      var r := StripRight(s[..|s| - 1]);
      AllSpaceAppend(s[..|s| - 1][|r|..], s[|s| - 1]);
      assert s[|r|..] == s[..|s| - 1][|r|..] + [s[|s| - 1]];
      r
    else s
  }

  /** `s.strip()`. */
  function Strip(s: string): (r: string)
    ensures Trimmed(r)
  {
    StripRight(StripLeft(s))
  }

  /** Stripping a string that has no whitespace at its ends changes nothing. */
  lemma StripTrimmed(s: string)
    requires Trimmed(s)
    ensures Strip(s) == s
  {
  }

  /** `strip()` is idempotent. */
  lemma StripIdempotent(s: string)
    ensures Strip(Strip(s)) == Strip(s)
  {
    StripTrimmed(Strip(s));
  }

  // ---------------------------------------------------------------------------
  // replace(pat, '')

  /**
   * `s.replace(pat, '')`: occurrences of `pat` are removed scanning left to
   * right without overlap, as Python does.
   */
  function RemoveAll(s: string, pat: string): (r: string)
    requires pat != []
    ensures |r| <= |s|
    decreases |s|
  {
    if |s| < |pat| then s
    else if s[..|pat|] == pat then RemoveAll(s[|pat|..], pat)
    else [s[0]] + RemoveAll(s[1..], pat)
  }

  /** A leading part that never starts an occurrence of `pat` is kept verbatim. */
  lemma {:induction false} RemoveAllKeepsPrefix(x: string, y: string, pat: string)
    requires pat != [] && pat[0] !in x
    ensures RemoveAll(x + y, pat) == x + RemoveAll(y, pat)
    decreases |x|
  {
    if x == [] {
      assert x + y == y;
    } else {
      assert (x + y)[0] == x[0] && (x + y)[1..] == x[1..] + y;
      RemoveAllSkips(x + y, pat);
      RemoveAllKeepsPrefix(x[1..], y, pat);
      ConsConcat(x, RemoveAll(y, pat));
    }
  }

  /** Putting back the first character of `x` in front of the rest of `x` and `z`. */
  lemma ConsConcat(x: string, z: string)
    requires x != []
    ensures [x[0]] + (x[1..] + z) == x + z
  {
    assert x == [x[0]] + x[1..];
  }

  /** A string that does not start with the pattern's first character keeps that character. */
  lemma RemoveAllSkips(s: string, pat: string)
    requires pat != [] && s != [] && s[0] != pat[0]
    ensures RemoveAll(s, pat) == [s[0]] + RemoveAll(s[1..], pat)
  {
    if |s| >= |pat| {
      assert s[..|pat|][0] != pat[0];
    }
  }

  /** Removing from a string that does not mention the pattern's first character leaves it alone. */
  lemma RemoveAllAbsent(x: string, pat: string)
    requires pat != [] && pat[0] !in x
    ensures RemoveAll(x, pat) == x
  {
    RemoveAllKeepsPrefix(x, [], pat);
    assert x + [] == x;
  }
}

=== FILE: wrappers.dfy ===
/** The optional value used wherever the distributor returns `None` or a value. */
module Wrappers {

  datatype Option<+T> = None | Some(value: T)
}
